=== FILE: README.md ===
# Infix to postfix, modelled in Dafny

This project models the infix-to-postfix converter of the `InfixInterpreter`
program and proves properties of the model. It covers two pieces of code:

- `InfixToPostfix`, which has one method per stage.
- `InToPo.Interpret`, which is the same pipeline with the passes written inline. The
  driver calls this one.

The converter runs in five stages:

1. **Scan.** Split the infix string into its operands and its operator and
   parenthesis characters.
2. **Tokenise.** Turn the operator characters into tokens. Each token records
   its character, its precedence (`+` and `-` are 2, `*` and `/` are 1; lower
   binds tighter) and its parenthesis depth.
3. **Same-depth pass.** Join neighbouring tokens of equal depth by
   precedence. The tighter token goes below, and ties make the earlier token
   the left child.
4. **Cross-depth pass.** Give each token, as its left or right child, the
   nearest parentless token of the run one level deeper on that side.
5. **Leaf pass and output.** Fill every empty child slot with the next
   operand, left to right. Take the first parentless token as the root, and
   serialise it in postorder.

The source works on mutable objects. The model works on an arena instead:

- The arena is a sequence of `Token` records.
- A child slot is `None`, `Some(Node(i))` (token `i` of the arena) or
  `Some(Leaf(c))` (an operand).
- Each pass is a pure function from sequence to sequence.
- `InToPo`'s loops are methods with loop invariants. Each is proved equal to
  the matching `InfixToPostfix` pass.

Modules:

- `Wrappers`: `Option`.
- `Operator`: the token record and the postorder serialisation `Postfix`. It
  also has the stack discipline of a well-formed postfix string.
  - `Postfix` terminates because every link goes down a lexicographic order
    (`Descending`): deeper first, then tighter precedence, then further left.
- `Scanner`: the precedence table, the scan and the tokeniser.
- `Linking`: the three passes and the root.
- `InfixToPostfix`: the pipeline, `ConstructOperationTree` and `Interpret`.
- `InToPo`: the inlined converter, proved equal to `InfixToPostfix` on every
  input that converter accepts.
- `Fixtures`: the driver's six fixtures, traced stage by stage. It also
  covers the input where one token is the child of two others (`A+B*C*D`), an
  unbalanced parenthesis, every expression `x op y` of two operands and one
  table operator, bare or inside one pair of parentheses, and
  the two ways an input can fail.

The source's exceptions become preconditions, as listed under "Left out".
The code is followed where it differs from an idealised expression tree:

- The same-depth pass can make one token the child of two tokens and leave
  two tokens without a parent. `A+B*C*D` becomes `ABC*+`, dropping `*D`.
- The root is just the first parentless token.
- No claim of a unique root or of a tree is made.
- A lone operand such as `A` is sometimes described as converting to itself.
  The code instead finds no root and dereferences null (InfixToPostfix.cs:45,
  111), so the model requires at least one operator.

## Model

| member | source | states |
|---|---|---|
| `Scanner.GetVariablesAndOperators` | InfixInterpreter/InfixToPostfix.cs:62-80 | Every input character goes to exactly one output, so the two lengths sum to the input length. The operand side holds no operator character. The operator side holds only table keys and parentheses. |
| `Scanner.ScanPartition` | InfixInterpreter/InfixToPostfix.cs:70-76 | The two outputs together hold exactly the characters of the input, as a multiset. |
| `Scanner.ScanConcat` | InfixInterpreter/InfixToPostfix.cs:62-80 | The scan of a concatenation is the concatenation of the scans on both sides. |
| `Scanner.ScanIsFilter` | InfixInterpreter/InfixToPostfix.cs:62-93 | Each output is exactly the subsequence of the input, in source order, on its side of `CharIsOperator` (a table key or a parenthesis). |
| `Scanner.Tokenise` | InfixInterpreter/InfixToPostfix.cs:219-240 | There is one token per non-parenthesis character of the operator string. |
| `Scanner.TokeniseConcat` | InfixInterpreter/InfixToPostfix.cs:224-237 | The tokens of `a + b` are the tokens of `a` followed by the tokens of `b`. The tokens of `b` start at the depth `a` leaves open. |
| `Scanner.TokeniseAt` | InfixInterpreter/InfixToPostfix.cs:225-237 | The non-parenthesis character at position p becomes token number "non-parentheses before p". It gets its table precedence and the starting depth plus the `(` minus `)` count before p, with no balance check. |
| `Scanner.TokeniseDepths` | InfixInterpreter/InfixToPostfix.cs:219-240 | Tokenising from depth 0 yields the non-parenthesis characters in order. Each has its table precedence and its depth equals the `(` minus `)` count before it. |
| `Scanner.TokeniseValues` | InfixInterpreter/InfixToPostfix.cs:233-236 | Every token is fresh: no children, no parent. Its character is a table key from the input, and its precedence is that key's entry. |
| `Linking.ConnectSameDepth` | InfixInterpreter/InfixToPostfix.cs:194-217 | The same-depth pass keeps every token's character, depth and precedence. |
| `Linking.ConnectSameDepthRule` | InfixInterpreter/InfixToPostfix.cs:196-216 | The pass equals its slot-by-slot description. A strictly tighter token becomes the right child of its equal-depth left neighbour. Otherwise the left neighbour becomes its left child. The child is flagged, and pairs at different depths are untouched. |
| `Linking.ConnectSameDepthShape` | InfixInterpreter/InfixToPostfix.cs:196-216 | On fresh tokens, every link joins neighbours at equal depth and goes down the termination order. A token has a parent exactly when one of its two steps made it a child. |
| `Linking.ScanLeft` | InfixInterpreter/InfixToPostfix.cs:151-162 | The left scan finds only a parentless token of the run one level deeper, at or left of its start. |
| `Linking.ScanLeftNearest` | InfixInterpreter/InfixToPostfix.cs:151-162 | Every token the left scan passes over is in the run and already has a parent. When it finds nothing, the whole run adjoining the start already has parents. |
| `Linking.ScanRight` | InfixInterpreter/InfixToPostfix.cs:174-185 | The right scan finds only a parentless token of the run one level deeper, at or right of its start. |
| `Linking.ScanRightNearest` | InfixInterpreter/InfixToPostfix.cs:174-185 | Every token the right scan passes over is in the run and has a parent. When it finds nothing, the whole adjoining run has parents. |
| `Linking.AttachLeft` | InfixInterpreter/InfixToPostfix.cs:146-167 | The frame of the left half of a cross-depth step. Only token i's left slot changes among the slots, and a new flag can appear only on a token one level deeper than i; the exact effect is in `AttachLeftRule`. The slot changes only when the left neighbour is one level deeper, and then to a token of that depth left of i that had no parent and now has one. Labels stay and no flag is cleared. |
| `Linking.AttachLeftRule` | InfixInterpreter/InfixToPostfix.cs:151-166 | The linking rule of the left half, stated over the run of tokens one level deeper that ends just before i. If a token of the run has no parent, the nearest such token becomes i's left child and is flagged, and nothing else changes. If every token of the run has a parent, or the run is empty, nothing changes. |
| `Linking.AttachRight` | InfixInterpreter/InfixToPostfix.cs:169-190 | The mirror-image frame for the right slot; the exact effect is in `AttachRightRule`. The new child is a parentless token one level deeper to the right of i, and it is then flagged. |
| `Linking.AttachRightRule` | InfixInterpreter/InfixToPostfix.cs:174-189 | The mirror-image rule over the run that starts just after i. The nearest parentless token of the run becomes i's right child and is flagged. If there is none, nothing changes. |
| `Linking.CrossStepEffect` | InfixInterpreter/InfixToPostfix.cs:143-191 | Step i changes only the two slots of token i, and sets new flags only on tokens one level deeper than i (each new child among them). A slot changes only when the neighbour on that side is one level deeper. The new child is then a token that had no parent and now has one, so nothing is re-parented. |
| `Linking.ConnectDifferentDepths` | InfixInterpreter/InfixToPostfix.cs:141-192 | The whole cross-depth pass keeps every token's labels and never clears a flag. It replaces a slot only by a token one level deeper than the slot's owner, and keeps every slot whose neighbour on that side is not one level deeper. Afterwards, every token next to a token one level shallower has a parent. |
| `Linking.CrossStepAdopts` | InfixInterpreter/InfixToPostfix.cs:151-189 | After step i, each neighbour of token i that is one level deeper has a parent. If it had none, it was the nearest parentless token of its run, so the scan adopted it. |
| `Linking.CrossDepthEffect` | InfixInterpreter/InfixToPostfix.cs:141-192 | From step i on, labels stay and flags are never cleared. Slots before i stay. Any slot is kept or replaced by a token one level deeper. A slot whose neighbour is not one level deeper is kept. |
| `Linking.CrossDepthLinks` | InfixInterpreter/InfixToPostfix.cs:141-192 | The cross-depth pass keeps labels, only sets flags, and replaces a slot only by a token one level deeper than the slot's owner. |
| `Linking.CrossDepthDescending` | InfixInterpreter/InfixToPostfix.cs:156-188 | The cross-depth pass keeps every link going down the termination order, so serialisation terminates. |
| `Linking.ConnectDifferentDepthsKeepsShallowest` | InfixInterpreter/InfixToPostfix.cs:156-188 | The cross-depth pass never flags a token of the shallowest depth. |
| `Linking.CrossDepthKeepsSameDepthLinks` | InfixInterpreter/InfixToPostfix.cs:156-188 | The cross-depth pass never overwrites a slot that the same-depth pass filled. |
| `Linking.AddVariablesAsLeaves` | InfixInterpreter/InfixToPostfix.cs:114-139 | After the leaf pass, every slot of every token is filled. The operands consumed equal the empty slots before the pass. |
| `Linking.AddVariablesAsLeavesFrom` | InfixInterpreter/InfixToPostfix.cs:117-138 | From token i on, tokens before i are untouched. Later tokens get both slots filled and nothing else changed. The count consumed grows by the number of their empty slots. |
| `Linking.LeavesInOrder` | InfixInterpreter/InfixToPostfix.cs:114-139 | Operands are consumed strictly left to right, token by token, left slot before right slot. An empty slot gets the operand whose index is the number of empty slots before it. Filled slots, labels and flags are untouched. |
| `Linking.LeavesInOrderFrom` | InfixInterpreter/InfixToPostfix.cs:117-138 | From token i on, on an arena whose tail is still unfilled, each later empty slot gets the operand whose index is the number of empty slots before it in the whole arena. That count never exceeds the operands available. |
| `Linking.LeafPassShape` | InfixInterpreter/InfixToPostfix.cs:117-138 | The leaf pass keeps labels, flags and filled slots, and puts an operand of the input in every empty slot. |
| `Linking.LeafPassDescending` | InfixInterpreter/InfixToPostfix.cs:117-138 | The leaf pass keeps every link going down the termination order. |
| `Linking.FindUnparented` | InfixInterpreter/InfixToPostfix.cs:111 | The result is the first parentless token at or after i, or none when every such token has a parent. |
| `Linking.HeadOfTree` | InfixInterpreter/InfixToPostfix.cs:109-112 | A root exists exactly when some token has no parent. It is then the lowest-index parentless token. |
| `Linking.NotJoinedRight` | InfixInterpreter/InfixToPostfix.cs:196-216 | Walking left from any token, while the current token is the right child of its left neighbour, reaches a token at the same depth that is not the right child of its left neighbour. |
| `Linking.UnflaggedRight` | InfixInterpreter/InfixToPostfix.cs:196-216 | Walking right from a token that is not the right child of its left neighbour, while the current token is the left child of the next, reaches a same-depth token that neither same-depth step touching it flags. |
| `Linking.ShallowestUnflagged` | InfixInterpreter/InfixToPostfix.cs:196-216 | Among the shallowest tokens, the same-depth pass leaves one without a parent. |
| `Linking.RootExists` | InfixInterpreter/InfixToPostfix.cs:97-111 | With at least one operator token, the two linking passes leave a parentless token, so the root lookup does not return null. |
| `Operator.Postfix` | InfixInterpreter/InfixToPostfix.cs:266-272 | A token's serialisation is non-empty and ends with the token's own character. `PostfixWellFormed` states its stack discipline. |
| `Operator.ChildPostfix` | InfixInterpreter/InfixToPostfix.cs:271 | A child slot serialises to the empty string exactly when it is empty, as the null-conditional calls give. A token child serialises to a string ending in that child's character. |
| `Operator.PostfixWellFormed` | InfixInterpreter/InfixToPostfix.cs:266-272 | In a complete arena of operator tokens over operand leaves, every token's postorder serialisation is a well-formed postfix expression. Every operator finds two operands, and one value is left. |
| `Operator.ChildWellFormed` | InfixInterpreter/InfixToPostfix.cs:271 | The same for one child slot: a leaf is its single operand character, and a token is its own serialisation. |
| `Operator.PostfixChars` | InfixInterpreter/InfixToPostfix.cs:266-272 | Every character of a serialisation is a token character or a leaf character of the arena. |
| `Operator.ChildChars` | InfixInterpreter/InfixToPostfix.cs:271 | The same for one child slot. |
| `InfixToPostfix.TokenStage` | InfixInterpreter/InfixToPostfix.cs:97-98 | The token list has one fresh token per operator character, each carrying a table key from the operator string. |
| `InfixToPostfix.SameDepthStage` | InfixInterpreter/InfixToPostfix.cs:100 | After the same-depth pass, the tokens link only to tokens, and the links go down the termination order. |
| `InfixToPostfix.LinkedShape` | InfixInterpreter/InfixToPostfix.cs:97-102 | After both linking passes, links still go only to tokens and down the termination order. A parentless token exists whenever a token does. |
| `InfixToPostfix.ConstructOperationTree` | InfixInterpreter/InfixToPostfix.cs:95-107 | The arena is complete and descending. Tokens carry input operators and leaves carry input operands. A root exists exactly when a token does, and it is parentless. |
| `InfixToPostfix.Interpret` | InfixInterpreter/InfixToPostfix.cs:36-46 | On an input with an operator and enough operands, the result is a well-formed postfix expression over the four operators. It uses only characters of the input. |
| `InToPo.GetOperatorsFromOperatorsString` | InfixInterpreter/InToPo.cs:127-148 | With its own precedence table and parenthesis constants, this tokeniser yields exactly `InfixToPostfix`'s token list. |
| `InToPo.ConnectSameDepth` | InfixInterpreter/InToPo.cs:33-53 | The inline same-depth loop computes `InfixToPostfix`'s same-depth pass. |
| `InToPo.ScanLeftLoop` | InfixInterpreter/InToPo.cs:60-72 | The inline left scan finds what `ScanLeft` finds. |
| `InToPo.ScanRightLoop` | InfixInterpreter/InToPo.cs:83-95 | The inline right scan finds what `ScanRight` finds. |
| `InToPo.LinkLeft` | InfixInterpreter/InToPo.cs:58-79 | The left half of a cross-depth step equals `AttachLeft`. |
| `InToPo.LinkRight` | InfixInterpreter/InToPo.cs:81-102 | The right half of a cross-depth step equals `AttachRight`. |
| `InToPo.ConnectDifferentDepths` | InfixInterpreter/InToPo.cs:55-103 | The inline cross-depth loop computes `InfixToPostfix`'s cross-depth pass. |
| `InToPo.AddVariablesAsLeaves` | InfixInterpreter/InToPo.cs:105-120 | The post-increment leaf loop fills the same slots with the same operands, and consumes as many operands, as `InfixToPostfix`'s leaf pass. |
| `InToPo.FindHead` | InfixInterpreter/InToPo.cs:122 | The inline root lookup returns the first parentless token. |
| `InToPo.Interpret` | InfixInterpreter/InToPo.cs:24-125 | On every input `InfixToPostfix` accepts, the inlined converter returns what `InfixToPostfix.Interpret` returns. |
| `Fixtures.Fixture0` | InfixInterpreter/Program.cs:13-31 | `A+B*C` converts to `ABC*+`. |
| `Fixtures.Fixture1` | InfixInterpreter/Program.cs:13-31 | `A*B+C` converts to `AB*C+`. |
| `Fixtures.Fixture2` | InfixInterpreter/Program.cs:13-31 | `A*B+C*D` converts to `AB*CD*+`. |
| `Fixtures.Fixture3` | InfixInterpreter/Program.cs:13-31 | `(A+B)/(C-D)` converts to `AB+CD-/`. |
| `Fixtures.Fixture4` | InfixInterpreter/Program.cs:13-31 | `A*B/C` converts to `AB*C/`. |
| `Fixtures.Fixture5` | InfixInterpreter/Program.cs:13-31 | `((A+B)*C+D)/(E+F+G)` converts to `AB+C*D+EF+G+/`. |
| `Fixtures.FixtureTable` | InfixInterpreter/Program.cs:13-31 | Every fixture input is accepted and converts to its expected postfix string. |
| `Fixtures.CheckFixture` | InfixInterpreter/Program.cs:54-62 | The driver's comparison of `InToPo.Interpret` against the expected string is true for every fixture index. |
| `Fixtures.SharedChild` | InfixInterpreter/InfixToPostfix.cs:196-216 | `A+B*C*D` converts to `ABC*+`. The first `*` is the child of both `+` and the second `*`, and the second `*` and `D` are dropped. |
| `Fixtures.Grouped` | InfixInterpreter/InfixToPostfix.cs:141-192 | `(A*B)+C` converts to `AB*C+` through the cross-depth pass. |
| `Fixtures.Unbalanced` | InfixInterpreter/InfixToPostfix.cs:224-237 | `)A+B` is accepted: its `+` sits at depth -1, and it converts to `AB+`. |
| `Fixtures.SingleOperator` | InfixInterpreter/InfixToPostfix.cs:36-46 | For all operands x and y and every table operator op, `x op y` is accepted and converts to `x y op`. |
| `Fixtures.GroupedSingleOperator` | InfixInterpreter/InfixToPostfix.cs:36-46 | For all operands x and y and every table operator op, `(x op y)` is accepted and converts to `x y op`: the parentheses put the lone token at depth 1 and it is still the root. |
| `Fixtures.NoOperator` | InfixInterpreter/InfixToPostfix.cs:42-45 | A lone operand is rejected, because there is no root to serialise. |
| `Fixtures.TooFewOperands` | InfixInterpreter/InfixToPostfix.cs:119-137 | `A+` is rejected, because the leaf pass would index past the operands. |

## Left out

- `Program.Main` and the console output of `Program.Interpret(int)`
  (Program.cs:45-62): printing only. `Fixtures.CheckFixture` keeps the
  comparison the driver prints.
- `Program.Interpret(string)` and its nested `Tree`, `Node`, `LeafNode`,
  `FillLeaves` and `Operator.CompareTo` (Program.cs:64-234): an unused
  alternative draft that returns a bracketed rendering, not postfix.
- The `ToString` overrides (InfixToPostfix.cs:274-278, InToPo.cs:182-186):
  debug formatting only.
- The .NET exceptions become preconditions, not behaviour:
  - a `KeyNotFoundException` on a non-table operator character becomes
    `OperatorString`;
  - an `IndexOutOfRangeException` on too few operands becomes
    `EmptySlots(...) <= |vars|`;
  - a `NullReferenceException` on a missing root becomes "at least one
    operator", in `Interpretable`.
- The leaf payload is left out. Leaves copy their parent's depth and
  precedence and set `IsLeaf`, but none of this reaches the output, so a leaf
  is just `Leaf(c)`.
- Object identity is replaced by arena indices. A token shared by two parents
  is one index referenced twice.
- The second `Operator` class (InToPo.cs:151-187) is an identical copy, so it
  is modelled once.
- Depth and precedence are unbounded integers. A C# `int` would overflow only
  past 2^31 nested parentheses.
- The unused imports of Program.cs are left out.
- The model's `char` is a Unicode scalar value, and the source's `char` is
  a UTF-16 code unit. An operand outside the Basic Multilingual Plane is one
  operand here. In the source it is two surrogate operands that fill two
  leaf slots. A lone surrogate cannot be written in the model at all.
- `InfixToPostfix.Interpret`: its contract promises well-formed postfix over
  the input's characters, not that every operand or operator appears. The
  same-depth pass can drop part of the input (`Fixtures.SharedChild`).

=== FILE: fixtures.dfy ===
/**
  The fixture table of the driver (`Program.Infixes` and `Program.PostFixes`)
  and the converter run on it. Each fixture is traced stage by stage: the
  scan, the linked arena, the arena after the leaf pass, the root and the
  postfix string. `Trace` then assembles the stages into a statement about
  `Interpret`. Beyond the table: the shared-child case of the same-depth
  pass, a parenthesised product, an unbalanced parenthesis, and two inputs
  the converter cannot handle.
 */
module Fixtures {
  import opened Wrappers
  import opened Operator
  import opened Scanner
  import opened Linking
  import opened InfixToPostfix
  import InToPo

  /** The driver's infix inputs. */
  const Infixes: seq<string> := ["A+B*C", "A*B+C", "A*B+C*D", "(A+B)/(C-D)", "A*B/C", "((A+B)*C+D)/(E+F+G)"]

  /** The postfix string the driver expects for each input. */
  const PostFixes: seq<string> := ["ABC*+", "AB*C+", "AB*CD*+", "AB+CD-/", "AB*C/", "AB+C*D+EF+G+/"]

  /** The stages of one run fixed, the converter's result follows: the
      input is interpretable and `Interpret` returns the root's postfix. */
  lemma Trace(infix: string, vars: string, ops: string, linked: seq<Token>, filled: seq<Token>,
              root: nat, postfix: string)
    requires GetVariablesAndOperators(infix) == (vars, ops)
    requires OperatorString(ops) && LinkedOperators(ops) == linked
    requires 0 < |linked| && EmptySlots(linked) <= |vars|
    requires AddVariablesAsLeaves(linked, vars).0 == filled
    requires HeadOfTree(filled) == Some(root) && Descending(filled)
    requires root < |filled| && Postfix(filled, root) == postfix
    ensures Interpretable(infix) && Interpret(infix) == postfix
  {
    LinkedShape(ops);
  }

  /** The scan of `s`, given its two filters. */
  lemma Scanned(s: string, vars: string, ops: string)
    requires VariableChars(s) == vars && OperatorChars(s) == ops
    ensures GetVariablesAndOperators(s) == (vars, ops)
  {
    ScanIsFilter(s);
  }

  // ---------------------------------------------------------------------
  // Fixture 0: A+B*C

  const Linked0 := [Token('+', 0, 2, None, Some(Node(1)), false), Token('*', 0, 1, None, None, true)]
  const Filled0 := [
    Token('+', 0, 2, Some(Leaf('A')), Some(Node(1)), false),
    Token('*', 0, 1, Some(Leaf('B')), Some(Leaf('C')), true)]

  /** `*` binds tighter than the `+` before it, so it becomes `+`'s right child. */
  lemma Link0()
    ensures LinkedOperators("+*") == Linked0
  {}

  lemma Leaves0()
    ensures EmptySlots(Linked0) == 3 && AddVariablesAsLeaves(Linked0, "ABC").0 == Filled0
  {
    LeavesInOrder(Linked0, "ABC");
    var r := AddVariablesAsLeaves(Linked0, "ABC").0;
    forall k | 0 <= k < |Linked0|
      ensures r[k] == Filled0[k]
    {
      assert FilledInOrder(Linked0, "ABC", r, k);
    }
  }

  lemma Output0()
    ensures HeadOfTree(Filled0) == Some(0) && Descending(Filled0) && Postfix(Filled0, 0) == "ABC*+"
  {}

  lemma Scan0() ensures GetVariablesAndOperators("A+B*C") == ("ABC", "+*")
  {
    Scanned("A+B*C", "ABC", "+*");
  }

  lemma Fixture0(infix: string)
    requires infix == Infixes[0]
    ensures Interpretable(infix) && Interpret(infix) == PostFixes[0]
  {
    Scan0();
    var (vars, ops) := GetVariablesAndOperators(infix);
    Link0();
    Leaves0();
    Output0();
    Trace(infix, vars, ops, Linked0, Filled0, 0, PostFixes[0]);
  }

  // ---------------------------------------------------------------------
  // Fixture 1: A*B+C

  const Linked1 := [Token('*', 0, 1, None, None, true), Token('+', 0, 2, Some(Node(0)), None, false)]
  const Filled1 := [
    Token('*', 0, 1, Some(Leaf('A')), Some(Leaf('B')), true),
    Token('+', 0, 2, Some(Node(0)), Some(Leaf('C')), false)]

  /** `+` does not bind tighter than the `*` before it, so `*` becomes `+`'s
      left child. */
  lemma Link1()
    ensures LinkedOperators("*+") == Linked1
  {}

  lemma Leaves1()
    ensures EmptySlots(Linked1) == 3 && AddVariablesAsLeaves(Linked1, "ABC").0 == Filled1
  {
    LeavesInOrder(Linked1, "ABC");
    var r := AddVariablesAsLeaves(Linked1, "ABC").0;
    forall k | 0 <= k < |Linked1|
      ensures r[k] == Filled1[k]
    {
      assert FilledInOrder(Linked1, "ABC", r, k);
    }
  }

  lemma Output1()
    ensures HeadOfTree(Filled1) == Some(1) && Descending(Filled1) && Postfix(Filled1, 1) == "AB*C+"
  {}

  lemma Scan1() ensures GetVariablesAndOperators("A*B+C") == ("ABC", "*+")
  {
    Scanned("A*B+C", "ABC", "*+");
  }

  lemma Fixture1(infix: string)
    requires infix == Infixes[1]
    ensures Interpretable(infix) && Interpret(infix) == PostFixes[1]
  {
    Scan1();
    var (vars, ops) := GetVariablesAndOperators(infix);
    Link1();
    Leaves1();
    Output1();
    Trace(infix, vars, ops, Linked1, Filled1, 1, PostFixes[1]);
  }

  // ---------------------------------------------------------------------
  // Fixture 2: A*B+C*D

  const Linked2 := [
    Token('*', 0, 1, None, None, true),
    Token('+', 0, 2, Some(Node(0)), Some(Node(2)), false),
    Token('*', 0, 1, None, None, true)]
  const Filled2 := [
    Token('*', 0, 1, Some(Leaf('A')), Some(Leaf('B')), true),
    Token('+', 0, 2, Some(Node(0)), Some(Node(2)), false),
    Token('*', 0, 1, Some(Leaf('C')), Some(Leaf('D')), true)]

  lemma Link2()
    ensures LinkedOperators("*+*") == Linked2
  {}

  lemma Leaves2()
    ensures EmptySlots(Linked2) == 4 && AddVariablesAsLeaves(Linked2, "ABCD").0 == Filled2
  {
    LeavesInOrder(Linked2, "ABCD");
    var r := AddVariablesAsLeaves(Linked2, "ABCD").0;
    forall k | 0 <= k < |Linked2|
      ensures r[k] == Filled2[k]
    {
      assert FilledInOrder(Linked2, "ABCD", r, k);
    }
  }

  lemma Output2()
    ensures HeadOfTree(Filled2) == Some(1) && Descending(Filled2) && Postfix(Filled2, 1) == "AB*CD*+"
  {}

  lemma Scan2() ensures GetVariablesAndOperators("A*B+C*D") == ("ABCD", "*+*")
  {
    Scanned("A*B+C*D", "ABCD", "*+*");
  }

  lemma Fixture2(infix: string)
    requires infix == Infixes[2]
    ensures Interpretable(infix) && Interpret(infix) == PostFixes[2]
  {
    Scan2();
    var (vars, ops) := GetVariablesAndOperators(infix);
    Link2();
    Leaves2();
    Output2();
    Trace(infix, vars, ops, Linked2, Filled2, 1, PostFixes[2]);
  }

  // ---------------------------------------------------------------------
  // Fixture 3: (A+B)/(C-D)

  const Linked3 := [
    Token('+', 1, 2, None, None, true),
    Token('/', 0, 1, Some(Node(0)), Some(Node(2)), false),
    Token('-', 1, 2, None, None, true)]
  const Filled3 := [
    Token('+', 1, 2, Some(Leaf('A')), Some(Leaf('B')), true),
    Token('/', 0, 1, Some(Node(0)), Some(Node(2)), false),
    Token('-', 1, 2, Some(Leaf('C')), Some(Leaf('D')), true)]

  /** No two neighbours share a depth; the cross-depth pass hangs both
      parenthesised tokens under `/`. */
  lemma Link3()
    ensures LinkedOperators("(+)/(-)") == Linked3
  {}

  lemma Leaves3()
    ensures EmptySlots(Linked3) == 4 && AddVariablesAsLeaves(Linked3, "ABCD").0 == Filled3
  {
    LeavesInOrder(Linked3, "ABCD");
    var r := AddVariablesAsLeaves(Linked3, "ABCD").0;
    forall k | 0 <= k < |Linked3|
      ensures r[k] == Filled3[k]
    {
      assert FilledInOrder(Linked3, "ABCD", r, k);
    }
  }

  lemma Output3()
    ensures HeadOfTree(Filled3) == Some(1) && Descending(Filled3) && Postfix(Filled3, 1) == "AB+CD-/"
  {}

  lemma Scan3A() ensures GetVariablesAndOperators("(A+B)") == ("AB", "(+)")
  {
    Scanned("(A+B)", "AB", "(+)");
  }

  lemma Scan3B() ensures GetVariablesAndOperators("/(C-D)") == ("CD", "/(-)")
  {
    Scanned("/(C-D)", "CD", "/(-)");
  }

  lemma Scan3(infix: string)
    requires infix == "(A+B)" + "/(C-D)"
    ensures GetVariablesAndOperators(infix) == ("AB" + "CD", "(+)" + "/(-)")
  {
    Scan3A();
    Scan3B();
    ScanConcat("(A+B)", "/(C-D)");
  }

  lemma Fixture3(infix: string)
    requires infix == Infixes[3]
    ensures Interpretable(infix) && Interpret(infix) == PostFixes[3]
  {
    assert infix == "(A+B)" + "/(C-D)";
    Scan3(infix);
    var (vars, ops) := GetVariablesAndOperators(infix);
    assert vars == "ABCD" && ops == "(+)/(-)";
    Link3();
    Leaves3();
    Output3();
    Trace(infix, vars, ops, Linked3, Filled3, 1, PostFixes[3]);
  }

  // ---------------------------------------------------------------------
  // Fixture 4: A*B/C

  const Linked4 := [Token('*', 0, 1, None, None, true), Token('/', 0, 1, Some(Node(0)), None, false)]
  const Filled4 := [
    Token('*', 0, 1, Some(Leaf('A')), Some(Leaf('B')), true),
    Token('/', 0, 1, Some(Node(0)), Some(Leaf('C')), false)]

  /** Equal precedence groups to the left: `*` becomes `/`'s left child. */
  lemma Link4()
    ensures LinkedOperators("*/") == Linked4
  {}

  lemma Leaves4()
    ensures EmptySlots(Linked4) == 3 && AddVariablesAsLeaves(Linked4, "ABC").0 == Filled4
  {
    LeavesInOrder(Linked4, "ABC");
    var r := AddVariablesAsLeaves(Linked4, "ABC").0;
    forall k | 0 <= k < |Linked4|
      ensures r[k] == Filled4[k]
    {
      assert FilledInOrder(Linked4, "ABC", r, k);
    }
  }

  lemma Output4()
    ensures HeadOfTree(Filled4) == Some(1) && Descending(Filled4) && Postfix(Filled4, 1) == "AB*C/"
  {}

  lemma Scan4() ensures GetVariablesAndOperators("A*B/C") == ("ABC", "*/")
  {
    Scanned("A*B/C", "ABC", "*/");
  }

  lemma Fixture4(infix: string)
    requires infix == Infixes[4]
    ensures Interpretable(infix) && Interpret(infix) == PostFixes[4]
  {
    Scan4();
    var (vars, ops) := GetVariablesAndOperators(infix);
    Link4();
    Leaves4();
    Output4();
    Trace(infix, vars, ops, Linked4, Filled4, 1, PostFixes[4]);
  }

  // ---------------------------------------------------------------------
  // Fixture 5: ((A+B)*C+D)/(E+F+G)
  //
  // The input is handled in the pieces `((A+B)`, `*C+D)`, `/(E+`, `F+G)`.
  // The scan and the tokens are assembled from the pieces, and the
  // cross-depth pass is taken in steps.

  const Tokens5A := [Token('+', 2, 2, None, None, false)]
  const Tokens5B := [Token('*', 1, 1, None, None, false), Token('+', 1, 2, None, None, false)]
  const Tokens5C := [Token('/', 0, 1, None, None, false), Token('+', 1, 2, None, None, false)]
  const Tokens5D := [Token('+', 1, 2, None, None, false)]

  const Tokens5 := [
    Token('+', 2, 2, None, None, false), Token('*', 1, 1, None, None, false),
    Token('+', 1, 2, None, None, false), Token('/', 0, 1, None, None, false),
    Token('+', 1, 2, None, None, false), Token('+', 1, 2, None, None, false)]
  const Same5 := [
    Token('+', 2, 2, None, None, false), Token('*', 1, 1, None, None, true),
    Token('+', 1, 2, Some(Node(1)), None, false), Token('/', 0, 1, None, None, false),
    Token('+', 1, 2, None, None, true), Token('+', 1, 2, Some(Node(4)), None, false)]
  /** After cross-depth steps 0 to 2: `*` has adopted the inner `+`. */
  const Cross5 := [
    Token('+', 2, 2, None, None, true), Token('*', 1, 1, Some(Node(0)), None, true),
    Token('+', 1, 2, Some(Node(1)), None, false), Token('/', 0, 1, None, None, false),
    Token('+', 1, 2, None, None, true), Token('+', 1, 2, Some(Node(4)), None, false)]
  const Linked5 := [
    Token('+', 2, 2, None, None, true), Token('*', 1, 1, Some(Node(0)), None, true),
    Token('+', 1, 2, Some(Node(1)), None, true), Token('/', 0, 1, Some(Node(2)), Some(Node(5)), false),
    Token('+', 1, 2, None, None, true), Token('+', 1, 2, Some(Node(4)), None, true)]
  const Filled5 := [
    Token('+', 2, 2, Some(Leaf('A')), Some(Leaf('B')), true),
    Token('*', 1, 1, Some(Node(0)), Some(Leaf('C')), true),
    Token('+', 1, 2, Some(Node(1)), Some(Leaf('D')), true),
    Token('/', 0, 1, Some(Node(2)), Some(Node(5)), false),
    Token('+', 1, 2, Some(Leaf('E')), Some(Leaf('F')), true),
    Token('+', 1, 2, Some(Node(4)), Some(Leaf('G')), true)]

  lemma Scan5A() ensures GetVariablesAndOperators("((A+B)") == ("AB", "((+)")
  {
    Scanned("((A+B)", "AB", "((+)");
  }

  lemma Scan5B() ensures GetVariablesAndOperators("*C+D)") == ("CD", "*+)")
  {
    Scanned("*C+D)", "CD", "*+)");
  }

  lemma Scan5C() ensures GetVariablesAndOperators("/(E+") == ("E", "/(+")
  {
    Scanned("/(E+", "E", "/(+");
  }

  lemma Scan5D() ensures GetVariablesAndOperators("F+G)") == ("FG", "+)")
  {
    Scanned("F+G)", "FG", "+)");
  }

  lemma Scan5(infix: string)
    requires infix == "((A+B)" + "*C+D)" + "/(E+" + "F+G)"
    ensures GetVariablesAndOperators(infix) == ("AB" + "CD" + "E" + "FG", "((+)" + "*+)" + "/(+" + "+)")
  {
    var a, b, c, d := "((A+B)", "*C+D)", "/(E+", "F+G)";
    Scan5A();
    Scan5B();
    Scan5C();
    Scan5D();
    ScanConcat(a, b);
    ScanConcat(a + b, c);
    ScanConcat(a + b + c, d);
  }

  /** Each piece of the operator string tokenised from the depth the pieces
      before it leave open. */
  lemma TokenisePieces5()
    ensures OperatorString("((+)") && OperatorString("*+)") && OperatorString("/(+") && OperatorString("+)")
    ensures Tokenise("((+)", 0, 0) == Tokens5A && Balance("((+)") == 1
    ensures Tokenise("*+)", 0, 1) == Tokens5B && Balance("*+)") == -1
    ensures Tokenise("/(+", 0, 0) == Tokens5C && Balance("/(+") == 1
    ensures Tokenise("+)", 0, 1) == Tokens5D
  {}

  lemma TokeniseTail5(tail: string)
    requires tail == "*+)" + ("/(+" + "+)")
    ensures OperatorString(tail)
    ensures Tokenise(tail, 0, 1) == Tokens5B + (Tokens5C + Tokens5D)
  {
    var b, c, d := "*+)", "/(+", "+)";
    assert b[0..] == b && c[0..] == c;
    TokenisePieces5();
    TokeniseConcat(c, d, 0, 0);
    TokeniseConcat(b, c + d, 0, 1);
  }

  lemma Tokenise5(ops: string)
    requires ops == "((+)" + "*+)" + "/(+" + "+)"
    ensures OperatorString(ops) && GetOperators(ops) == Tokens5
  {
    var a, tail := "((+)", "*+)" + ("/(+" + "+)");
    assert ops == a + tail;
    assert a[0..] == a;
    TokenisePieces5();
    TokeniseTail5(tail);
    TokeniseConcat(a, tail, 0, 0);
    assert Tokens5 == Tokens5A + (Tokens5B + (Tokens5C + Tokens5D));
  }

  /** Same depth: `*` under the inner `+`'s left, the first `+` of the last
      group under the second's left. */
  lemma SameDepth5() ensures ConnectSameDepth(Tokens5) == Same5 {}

  lemma CrossSteps5()
    ensures CrossStep(Same5, 0) == Same5
    ensures CrossStep(Same5, 1) == Cross5
    ensures CrossStep(Cross5, 2) == Cross5
  {}

  /** Cross depth: `/` adopts the inner `+` on its left and, skipping the
      flagged `+`, the last `+` on its right. */
  lemma CrossDepth5() ensures ConnectDifferentDepths(Same5) == Linked5
  {
    CrossSteps5();
    assert ConnectDifferentDepthsFrom(Same5, 0) == ConnectDifferentDepthsFrom(Same5, 1);
    assert ConnectDifferentDepthsFrom(Same5, 1) == ConnectDifferentDepthsFrom(Cross5, 2);
    CrossTail5();
  }

  lemma CrossTail5() ensures ConnectDifferentDepthsFrom(Cross5, 3) == Linked5 {}

  lemma Leaves5()
    ensures EmptySlots(Linked5) == 7
    ensures AddVariablesAsLeaves(Linked5, "AB" + "CD" + "E" + "FG").0 == Filled5
  {
    var vars := "AB" + "CD" + "E" + "FG";
    LeavesInOrder(Linked5, vars);
    var r := AddVariablesAsLeaves(Linked5, vars).0;
    assert FilledInOrder(Linked5, vars, r, 0);
    assert FilledInOrder(Linked5, vars, r, 1);
    assert FilledInOrder(Linked5, vars, r, 2);
    assert FilledInOrder(Linked5, vars, r, 3);
    assert FilledInOrder(Linked5, vars, r, 4);
    assert FilledInOrder(Linked5, vars, r, 5);
  }

  lemma Descending5()
    ensures Descending(Filled5)
  {}

  lemma Numerator5()
    requires Descending(Filled5)
    ensures Postfix(Filled5, 2) == "AB+C*D+"
  {
    assert Postfix(Filled5, 0) == "AB+";
    assert Postfix(Filled5, 1) == "AB+C*";
  }

  lemma Denominator5()
    requires Descending(Filled5)
    ensures Postfix(Filled5, 5) == "EF+G+"
  {
    assert Postfix(Filled5, 4) == "EF+";
  }

  lemma Output5()
    ensures HeadOfTree(Filled5) == Some(3) && Descending(Filled5)
    ensures Postfix(Filled5, 3) == "AB+C*D+EF+G+/"
  {
    Descending5();
    Numerator5();
    Denominator5();
  }

  lemma Fixture5(infix: string)
    requires infix == Infixes[5]
    ensures Interpretable(infix) && Interpret(infix) == PostFixes[5]
  {
    assert infix == "((A+B)" + "*C+D)" + "/(E+" + "F+G)";
    Scan5(infix);
    var (vars, ops) := GetVariablesAndOperators(infix);
    Tokenise5(ops);
    SameDepth5();
    CrossDepth5();
    Leaves5();
    Output5();
    Trace(infix, vars, ops, Linked5, Filled5, 3, PostFixes[5]);
  }

  // ---------------------------------------------------------------------
  // The whole table

  /** Every fixture of the driver is interpretable and converts to the
      expected postfix string. */
  lemma FixtureTable()
    ensures |Infixes| == |PostFixes|
    ensures forall i :: 0 <= i < |Infixes| ==> Interpretable(Infixes[i]) && Interpret(Infixes[i]) == PostFixes[i]
  {
    forall i | 0 <= i < |Infixes|
      ensures Interpretable(Infixes[i]) && Interpret(Infixes[i]) == PostFixes[i]
    {
      if i == 0 {
        Fixture0(Infixes[0]);
      } else if i == 1 {
        Fixture1(Infixes[1]);
      } else if i == 2 {
        Fixture2(Infixes[2]);
      } else if i == 3 {
        Fixture3(Infixes[3]);
      } else if i == 4 {
        Fixture4(Infixes[4]);
      } else {
        Fixture5(Infixes[5]);
      }
    }
  }

  /** The driver's check of fixture `index` (console output left out): the
      `InToPo` converter's answer equals the expected postfix string. */
  method CheckFixture(index: nat) returns (actual: string, equal: bool)
    requires index < |Infixes|
    ensures actual == PostFixes[index] && equal
  {
    FixtureTable();
    var input := Infixes[index];
    actual := InToPo.Interpret(input);
    var expected := PostFixes[index];
    equal := actual == expected;
  }

  // ---------------------------------------------------------------------
  // Beyond the table

  const LinkedShared := [
    Token('+', 0, 2, None, Some(Node(1)), false),
    Token('*', 0, 1, None, None, true),
    Token('*', 0, 1, Some(Node(1)), None, false)]
  const FilledShared := [
    Token('+', 0, 2, Some(Leaf('A')), Some(Node(1)), false),
    Token('*', 0, 1, Some(Leaf('B')), Some(Leaf('C')), true),
    Token('*', 0, 1, Some(Node(1)), Some(Leaf('D')), false)]

  /** In `A+B*C*D` the first `*` is the right child of `+` and the left child
      of the second `*`, which is left without a parent. */
  lemma LinkShared()
    ensures LinkedOperators("+**") == LinkedShared
    ensures LinkedShared[0].right == LinkedShared[2].left == Some(Node(1))
    ensures !LinkedShared[0].hasParent && !LinkedShared[2].hasParent
  {}

  lemma LeavesShared()
    ensures EmptySlots(LinkedShared) == 4 && AddVariablesAsLeaves(LinkedShared, "ABCD").0 == FilledShared
  {
    LeavesInOrder(LinkedShared, "ABCD");
    var r := AddVariablesAsLeaves(LinkedShared, "ABCD").0;
    forall k | 0 <= k < |LinkedShared|
      ensures r[k] == FilledShared[k]
    {
      assert FilledInOrder(LinkedShared, "ABCD", r, k);
    }
  }

  lemma OutputShared()
    ensures HeadOfTree(FilledShared) == Some(0) && Descending(FilledShared) && Postfix(FilledShared, 0) == "ABC*+"
  {}

  /** The root is `+`, so the second `*` and the operand `D` are dropped from
      the output. */
  lemma ScanSharedChild() ensures GetVariablesAndOperators("A+B*C*D") == ("ABCD", "+**")
  {
    Scanned("A+B*C*D", "ABCD", "+**");
  }

  lemma SharedChild()
    ensures Interpretable("A+B*C*D") && Interpret("A+B*C*D") == "ABC*+"
  {
    ScanSharedChild();
    LinkShared();
    LeavesShared();
    OutputShared();
    Trace("A+B*C*D", "ABCD", "+**", LinkedShared, FilledShared, 0, "ABC*+");
  }

  const LinkedGrouped := [Token('*', 1, 1, None, None, true), Token('+', 0, 2, Some(Node(0)), None, false)]
  const FilledGrouped := [
    Token('*', 1, 1, Some(Leaf('A')), Some(Leaf('B')), true),
    Token('+', 0, 2, Some(Node(0)), Some(Leaf('C')), false)]

  /** A parenthesised product before a sum: the cross-depth pass makes `*`
      the left child of `+`. */
  lemma LinkGrouped()
    ensures LinkedOperators("(*)+") == LinkedGrouped
  {}

  lemma LeavesGrouped()
    ensures EmptySlots(LinkedGrouped) == 3 && AddVariablesAsLeaves(LinkedGrouped, "ABC").0 == FilledGrouped
  {
    LeavesInOrder(LinkedGrouped, "ABC");
    var r := AddVariablesAsLeaves(LinkedGrouped, "ABC").0;
    forall k | 0 <= k < |LinkedGrouped|
      ensures r[k] == FilledGrouped[k]
    {
      assert FilledInOrder(LinkedGrouped, "ABC", r, k);
    }
  }

  lemma OutputGrouped()
    ensures HeadOfTree(FilledGrouped) == Some(1) && Descending(FilledGrouped) && Postfix(FilledGrouped, 1) == "AB*C+"
  {}

  lemma ScanGrouped() ensures GetVariablesAndOperators("(A*B)+C") == ("ABC", "(*)+")
  {
    Scanned("(A*B)+C", "ABC", "(*)+");
  }

  lemma Grouped()
    ensures Interpretable("(A*B)+C") && Interpret("(A*B)+C") == "AB*C+"
  {
    ScanGrouped();
    LinkGrouped();
    LeavesGrouped();
    OutputGrouped();
    Trace("(A*B)+C", "ABC", "(*)+", LinkedGrouped, FilledGrouped, 1, "AB*C+");
  }

  const LinkedUnbalanced := [Token('+', -1, 2, None, None, false)]
  const FilledUnbalanced := [Token('+', -1, 2, Some(Leaf('A')), Some(Leaf('B')), false)]

  /** The tokeniser makes no balance check: after a stray `)` the `+` sits
      at depth -1. */
  lemma LinkUnbalanced()
    ensures GetOperators(")+") == [Token('+', -1, 2, None, None, false)]
    ensures LinkedOperators(")+") == LinkedUnbalanced
  {}

  lemma LeavesUnbalanced()
    ensures EmptySlots(LinkedUnbalanced) == 2 && AddVariablesAsLeaves(LinkedUnbalanced, "AB").0 == FilledUnbalanced
    ensures HeadOfTree(FilledUnbalanced) == Some(0) && Descending(FilledUnbalanced)
    ensures Postfix(FilledUnbalanced, 0) == "AB+"
  {}

  lemma ScanUnbalanced() ensures GetVariablesAndOperators(")A+B") == ("AB", ")+")
  {
    Scanned(")A+B", "AB", ")+");
  }

  /** Unbalanced parentheses are accepted as they come. */
  lemma Unbalanced()
    ensures Interpretable(")A+B") && Interpret(")A+B") == "AB+"
  {
    ScanUnbalanced();
    LinkUnbalanced();
    LeavesUnbalanced();
    Trace(")A+B", "AB", ")+", LinkedUnbalanced, FilledUnbalanced, 0, "AB+");
  }

  // ---------------------------------------------------------------------
  // One operator between two operands

  /** The scan of `x op y`. */
  lemma ScanSingle(x: char, op: char, y: char)
    requires !CharIsOperator(x) && !CharIsOperator(y) && op in OperatorPrecedences
    ensures GetVariablesAndOperators([x, op, y]) == ([x, y], [op])
  {
    var infix := [x, op, y];
    assert infix[1..] == [op, y] && infix[1..][1..] == [y] && infix[1..][1..][1..] == [];
    assert VariableChars([y]) == [y] && OperatorChars([y]) == [];
    assert VariableChars([op, y]) == [y] && OperatorChars([op, y]) == [op];
    Scanned(infix, [x, y], [op]);
  }

  /** A single operator becomes one fresh token that neither pass touches. */
  lemma LinkSingle(op: char)
    requires op in OperatorPrecedences
    ensures OperatorString([op])
    ensures LinkedOperators([op]) == [Token(op, 0, OperatorPrecedences[op], None, None, false)]
  {
    var ops := [op];
    var t := Token(op, 0, OperatorPrecedences[op], None, None, false);
    assert GetOperators(ops) == [t] by {
      assert ops[0..] == ops && ops[1..] == [];
    }
    assert ConnectSameDepth([t]) == [t];
    assert CrossStep([t], 0) == [t];
    assert ConnectDifferentDepths([t]) == ConnectDifferentDepthsFrom([t], 1) == [t];
  }

  /** The two empty slots of the lone token take `x` and then `y`. */
  lemma LeavesSingle(t: Token, x: char, y: char)
    requires t.left.None? && t.right.None?
    ensures EmptySlots([t]) == 2
    ensures AddVariablesAsLeaves([t], [x, y]).0 == [t.(left := Some(Leaf(x)), right := Some(Leaf(y)))]
  {
    assert SlotsBefore([t], 0) == 0;
    LeavesInOrder([t], [x, y]);
    assert FilledInOrder([t], [x, y], AddVariablesAsLeaves([t], [x, y]).0, 0);
  }

  /** Any expression `x op y` of two operands and one table operator converts
      to `x y op`: the only token is the root, and its two empty slots take
      the operands in order. */
  lemma SingleOperator(x: char, op: char, y: char)
    requires !CharIsOperator(x) && !CharIsOperator(y) && op in OperatorPrecedences
    ensures Interpretable([x, op, y]) && Interpret([x, op, y]) == [x, y, op]
  {
    var t := Token(op, 0, OperatorPrecedences[op], None, None, false);
    var filled := [t.(left := Some(Leaf(x)), right := Some(Leaf(y)))];
    ScanSingle(x, op, y);
    LinkSingle(op);
    LeavesSingle(t, x, y);
    assert HeadOfTree(filled) == Some(0);
    Trace([x, op, y], [x, y], [op], [t], filled, 0, [x, y, op]);
  }

  lemma ScanGroupedSingle(x: char, op: char, y: char)
    requires !CharIsOperator(x) && !CharIsOperator(y) && op in OperatorPrecedences
    ensures GetVariablesAndOperators(['(', x, op, y, ')']) == ([x, y], ['(', op, ')'])
  {
    var infix := ['(', x, op, y, ')'];
    assert infix[1..] == [x, op, y, ')'] && infix[1..][1..] == [op, y, ')'];
    assert infix[1..][1..][1..] == [y, ')'] && [y, ')'][1..] == [')'] && [')'][1..] == [];
    assert VariableChars([')']) == [] && OperatorChars([')']) == [')'];
    assert VariableChars([y, ')']) == [y] && OperatorChars([y, ')']) == [')'];
    assert VariableChars([op, y, ')']) == [y] && OperatorChars([op, y, ')']) == [op, ')'];
    assert VariableChars([x, op, y, ')']) == [x, y] && OperatorChars([x, op, y, ')']) == [op, ')'];
    Scanned(infix, [x, y], ['(', op, ')']);
  }

  /** A parenthesised single operator becomes one fresh token at depth 1,
      which neither pass touches. */
  lemma LinkGroupedSingle(op: char)
    requires op in OperatorPrecedences
    ensures OperatorString(['(', op, ')'])
    ensures LinkedOperators(['(', op, ')']) == [Token(op, 1, OperatorPrecedences[op], None, None, false)]
  {
    var ops := ['(', op, ')'];
    var t := Token(op, 1, OperatorPrecedences[op], None, None, false);
    assert GetOperators(ops) == [t] by {
      assert Tokenise(ops, 3, 0) == [];
      assert Tokenise(ops, 2, 1) == [];
      assert Tokenise(ops, 1, 1) == [t];
    }
    assert ConnectSameDepth([t]) == [t];
    assert CrossStep([t], 0) == [t];
    assert ConnectDifferentDepths([t]) == ConnectDifferentDepthsFrom([t], 1) == [t];
  }

  /** The same holds for `(x op y)`: the parentheses only lower the lone
      token one level, and it is still the root. */
  lemma GroupedSingleOperator(x: char, op: char, y: char)
    requires !CharIsOperator(x) && !CharIsOperator(y) && op in OperatorPrecedences
    ensures Interpretable(['(', x, op, y, ')']) && Interpret(['(', x, op, y, ')']) == [x, y, op]
  {
    var t := Token(op, 1, OperatorPrecedences[op], None, None, false);
    var filled := [t.(left := Some(Leaf(x)), right := Some(Leaf(y)))];
    ScanGroupedSingle(x, op, y);
    LinkGroupedSingle(op);
    LeavesSingle(t, x, y);
    assert HeadOfTree(filled) == Some(0);
    Trace(['(', x, op, y, ')'], [x, y], ['(', op, ')'], [t], filled, 0, [x, y, op]);
  }

  /** A lone operand has no operator, so there is no root to serialise. */
  lemma NoOperator()
    ensures !Interpretable("A")
  {
    ScanIsFilter("A");
    assert OperatorChars("A") == "";
  }

  /** `A+` leaves two empty slots for one operand, so the leaf pass would
      index past the operands. */
  lemma TooFewOperands()
    ensures !Interpretable("A+")
  {
    ScanIsFilter("A+");
    assert VariableChars("A+") == "A" && OperatorChars("A+") == "+";
    assert LinkedOperators("+") == [Token('+', 0, 2, None, None, false)];
  }
}

=== FILE: in_to_po.dfy ===
/**
  The converter `InToPo`: the same pipeline as `InfixToPostfix`, with its own
  precedence table and tokeniser and with the three linking passes written
  inline as loops over a mutable token list. Each loop is modelled as a
  method over the token arena and proved to compute exactly the matching
  pass of `InfixToPostfix`, so the two converters agree on every input.
 */
module InToPo {
  import opened Wrappers
  import opened Operator
  import Scanner
  import opened Linking
  import InfixToPostfix

  const OpenParenthesis: char := '('
  const CloseParenthesis: char := ')'

  /** This converter's own copy of the precedence table. */
  const OperatorPrecedences: map<char, nat> := map['+' := 2, '-' := 2, '*' := 1, '/' := 1]

  /** `InToPo.GetOperatorsFromOperatorsString`: the tokeniser loop, one token
      per non-parenthesis character, the depth moved by `(` and `)`. With this
      converter's own table and parenthesis constants it yields the token list
      of `InfixToPostfix`'s tokeniser. */
  method GetOperatorsFromOperatorsString(ops: string) returns (operators: seq<Token>)
    requires forall k :: 0 <= k < |ops| ==> Scanner.CharIsOperator(ops[k])
    ensures operators == Scanner.GetOperators(ops)
  {
    operators := [];
    var depth := 0;
    for i := 0 to |ops|
      invariant operators + Scanner.Tokenise(ops, i, depth) == Scanner.GetOperators(ops)
    {
      var c := ops[i];
      assert Scanner.CharIsOperator(c);
      if c == OpenParenthesis {
        depth := depth + 1;
      } else if c == CloseParenthesis {
        depth := depth - 1;
      } else {
        operators := operators + [Token(c, depth, OperatorPrecedences[c], None, None, false)];
      }
    }
  }

  /** The first loop of `InToPo.Interpret`: the inline same-depth loop, step
      for step the same-depth pass of `InfixToPostfix`. */
  method ConnectSameDepth(ts: seq<Token>) returns (r: seq<Token>)
    ensures r == Linking.ConnectSameDepth(ts)
  {
    r := ts;
    var i := 1;
    while i < |r|
      invariant 1 <= i && |r| == |ts|
      invariant ConnectSameDepthFrom(r, i) == Linking.ConnectSameDepth(ts)
      decreases |r| - i
    {
      var op, opPrev := r[i], r[i - 1];
      if op.depth == opPrev.depth {
        if op.precedence < opPrev.precedence {
          r := r[i - 1 := opPrev.(right := Some(Node(i)))];
          r := r[i := op.(hasParent := true)];
        } else {
          r := r[i := op.(left := Some(Node(i - 1)))];
          r := r[i - 1 := opPrev.(hasParent := true)];
        }
      }
      i := i + 1;
    }
  }

  /** The left `while` loop of `InToPo.Interpret`'s cross-depth loop: the
      inline left scan from token `i` over the run of tokens one level deeper;
      `left` is the last token looked at. The token it links is the one
      `ScanLeft` finds. */
  method ScanLeftLoop(r: seq<Token>, i: nat) returns (found: Option<nat>)
    requires 0 < i < |r|
    ensures found == ScanLeft(r, r[i].depth + 1, i - 1)
  {
    var op := r[i];
    var j: int := i;
    var left: Option<nat> := None;
    while true
      invariant 0 <= j <= i
      invariant ScanLeft(r, op.depth + 1, j - 1) == ScanLeft(r, op.depth + 1, i - 1)
      invariant left.None? ==> j == i
      invariant left.Some? ==> left.value == j && r[j].hasParent
      decreases j
    {
      j := j - 1;
      if j < 0 {
        break;
      }
      var next := r[j];
      if next.depth != op.depth + 1 {
        break;
      }
      left := Some(j);
      if !r[j].hasParent {
        break;
      }
    }
    found := if left.Some? && !r[left.value].hasParent then left else None;
  }

  /** The right `while` loop of `InToPo.Interpret`'s cross-depth loop: the
      inline right scan, symmetric to `ScanLeftLoop`. */
  method ScanRightLoop(r: seq<Token>, i: nat) returns (found: Option<nat>)
    requires i + 1 < |r|
    ensures found == ScanRight(r, r[i].depth + 1, i + 1)
  {
    var op := r[i];
    var j: int := i;
    var right: Option<nat> := None;
    while true
      invariant i <= j < |r|
      invariant ScanRight(r, op.depth + 1, j + 1) == ScanRight(r, op.depth + 1, i + 1)
      invariant right.None? ==> j == i
      invariant right.Some? ==> right.value == j && r[j].hasParent
      decreases |r| - j
    {
      j := j + 1;
      if j > |r| - 1 {
        break;
      }
      var next := r[j];
      if next.depth != op.depth + 1 {
        break;
      }
      right := Some(j);
      if !r[j].hasParent {
        break;
      }
    }
    found := if right.Some? && !r[right.value].hasParent then right else None;
  }

  /** The left half of `InToPo.Interpret`'s cross-depth loop body for token
      `i`: the left scan and, when it found a parentless token, the left link
      and its flag. */
  method LinkLeft(r: seq<Token>, i: nat) returns (r': seq<Token>)
    requires i < |r|
    ensures r' == AttachLeft(r, i)
  {
    r' := r;
    if i != 0 {
      var left := ScanLeftLoop(r, i);
      if left.Some? {
        r' := r'[i := r'[i].(left := Some(Node(left.value)))];
        r' := r'[left.value := r'[left.value].(hasParent := true)];
      }
    }
  }

  /** The right half of `InToPo.Interpret`'s cross-depth loop body for token
      `i`: the right scan and, when it found a parentless token, the right
      link and its flag. */
  method LinkRight(r: seq<Token>, i: nat) returns (r': seq<Token>)
    requires i < |r|
    ensures r' == AttachRight(r, i)
  {
    r' := r;
    if i != |r| - 1 {
      var right := ScanRightLoop(r, i);
      if right.Some? {
        r' := r'[i := r'[i].(right := Some(Node(right.value)))];
        r' := r'[right.value := r'[right.value].(hasParent := true)];
      }
    }
  }

  /** The second loop of `InToPo.Interpret`: the inline cross-depth loop, step
      for step the cross-depth pass of `InfixToPostfix`. */
  method ConnectDifferentDepths(ts: seq<Token>) returns (r: seq<Token>)
    ensures r == Linking.ConnectDifferentDepths(ts)
  {
    r := ts;
    for i := 0 to |ts|
      invariant |r| == |ts|
      invariant ConnectDifferentDepthsFrom(r, i) == Linking.ConnectDifferentDepths(ts)
    {
      r := LinkLeft(r, i);
      r := LinkRight(r, i);
    }
  }

  /** The third loop of `InToPo.Interpret`: the inline leaf loop. The
      post-increment hands out the operands in the same order as
      `InfixToPostfix`'s leaf pass. */
  method AddVariablesAsLeaves(ts: seq<Token>, vars: string) returns (r: seq<Token>, used: nat)
    requires EmptySlots(ts) <= |vars|
    ensures (r, used) == Linking.AddVariablesAsLeaves(ts, vars)
  {
    r, used := ts, 0;
    assert ts[0..] == ts;
    for i := 0 to |ts|
      invariant |r| == |ts|
      invariant used + EmptySlots(r[i..]) <= |vars|
      invariant AddVariablesAsLeavesFrom(r, vars, i, used) == Linking.AddVariablesAsLeaves(ts, vars)
    {
      assert r[i..][1..] == r[i + 1..];
      ghost var filled := FillToken(r[i], vars, used);
      ghost var before := r;
      if r[i].left.None? {
        r := r[i := r[i].(left := Some(Leaf(vars[used])))];
        used := used + 1;
      }
      if r[i].right.None? {
        r := r[i := r[i].(right := Some(Leaf(vars[used])))];
        used := used + 1;
      }
      assert r == before[i := filled.0] && used == filled.1;
      assert r[i + 1..] == before[i + 1..];
    }
  }

  /** The `Find` call of `InToPo.Interpret`: the first token without a parent. */
  method FindHead(ts: seq<Token>) returns (head: Option<nat>)
    ensures head == HeadOfTree(ts)
  {
    head := None;
    var i := 0;
    while i < |ts|
      invariant i <= |ts|
      invariant forall k :: 0 <= k < i ==> ts[k].hasParent
      decreases |ts| - i
    {
      if !ts[i].hasParent {
        head := Some(i);
        return;
      }
      i := i + 1;
    }
  }

  /** `InToPo.Interpret`: the converter the fixture driver calls. On every
      input `InfixToPostfix` accepts, it returns what `InfixToPostfix`
      returns. */
  method Interpret(infix: string) returns (postfix: string)
    requires InfixToPostfix.Interpretable(infix)
    ensures postfix == InfixToPostfix.Interpret(infix)
  {
    var (stringVariables, stringOperators) := Scanner.GetVariablesAndOperators(infix);
    var operatorList := GetOperatorsFromOperatorsString(stringOperators);
    operatorList := ConnectSameDepth(operatorList);
    operatorList := ConnectDifferentDepths(operatorList);
    var filled, _ := AddVariablesAsLeaves(operatorList, stringVariables);
    var head := FindHead(filled);
    assert (filled, head) == InfixToPostfix.ConstructOperationTree(stringOperators, stringVariables);
    postfix := Postfix(filled, head.value);
  }
}

=== FILE: infix_to_postfix.dfy ===
/**
  The converter `InfixToPostfix`: scan the infix string, tokenise its
  operator characters, run the three linking passes, take the first
  parentless token as the root and serialise it in postorder.
 */
module InfixToPostfix {
  import opened Wrappers
  import opened Operator
  import opened Scanner
  import opened Linking

  /** A string of scanner operator characters, as the scanner produces. */
  predicate OperatorString(ops: string) {
    forall k :: 0 <= k < |ops| ==> CharIsOperator(ops[k])
  }

  /** The token arena of `ops` after the same-depth and cross-depth passes. */
  function LinkedOperators(ops: string): seq<Token>
    requires OperatorString(ops)
  {
    ConnectDifferentDepths(ConnectSameDepth(GetOperators(ops)))
  }

  /** No slot of the arena holds an operand leaf. */
  predicate NoLeaves(ts: seq<Token>) {
    forall k :: 0 <= k < |ts| ==>
      && (ts[k].left.Some? ==> ts[k].left.value.Node?)
      && (ts[k].right.Some? ==> ts[k].right.value.Node?)
  }

  /** Every token carries a key of the precedence table that occurs in `ops`. */
  predicate TokensFrom(ts: seq<Token>, ops: string) {
    forall k :: 0 <= k < |ts| ==> ts[k].value in OperatorPrecedences && ts[k].value in ops
  }

  /** Every operand leaf of the arena carries a character of `vars`. */
  predicate LeavesFrom(ts: seq<Token>, vars: string) {
    forall k :: 0 <= k < |ts| ==>
      && (ts[k].left.Some? && ts[k].left.value.Leaf? ==> ts[k].left.value.value in vars)
      && (ts[k].right.Some? && ts[k].right.value.Leaf? ==> ts[k].right.value.value in vars)
  }

  /** The tokeniser makes one fresh token per operator character of `ops`. */
  lemma TokenStage(ops: string)
    requires OperatorString(ops)
    ensures |GetOperators(ops)| == NonParentheses(ops)
    ensures AllFresh(GetOperators(ops)) && TokensFrom(GetOperators(ops), ops)
  {
    assert ops[0..] == ops;
    TokeniseValues(ops, 0, 0);
  }

  /** After the same-depth pass the arena holds the tokens of `ops`, linked
      only token to token and down the termination order. */
  lemma SameDepthStage(ops: string)
    requires OperatorString(ops)
    ensures |ConnectSameDepth(GetOperators(ops))| == NonParentheses(ops)
    ensures Descending(ConnectSameDepth(GetOperators(ops)))
    ensures NoLeaves(ConnectSameDepth(GetOperators(ops)))
    ensures TokensFrom(ConnectSameDepth(GetOperators(ops)), ops)
  {
    var ts := GetOperators(ops);
    TokenStage(ops);
    ConnectSameDepthShape(ts);
    var a := ConnectSameDepth(ts);
    forall k | 0 <= k < |a|
      ensures a[k].left.Some? ==> a[k].left.value.Node?
      ensures a[k].right.Some? ==> a[k].right.value.Node?
      ensures a[k].value in OperatorPrecedences && a[k].value in ops
    {
      assert AdjacentAt(a, k);
      assert a[k].value == ts[k].value;
    }
  }

  /** The linked arena has one token per operator character, links only
      tokens to tokens, keeps every link going down the termination order,
      and has a parentless token whenever it has a token at all. */
  lemma LinkedShape(ops: string)
    requires OperatorString(ops)
    ensures |LinkedOperators(ops)| == NonParentheses(ops)
    ensures Descending(LinkedOperators(ops)) && NoLeaves(LinkedOperators(ops))
    ensures TokensFrom(LinkedOperators(ops), ops)
    ensures |LinkedOperators(ops)| > 0 ==>
      exists k :: 0 <= k < |LinkedOperators(ops)| && !LinkedOperators(ops)[k].hasParent
  {
    SameDepthStage(ops);
    var a := ConnectSameDepth(GetOperators(ops));
    CrossDepthDescending(a);
    CrossDepthLinks(a);
    var b := ConnectDifferentDepths(a);
    forall k | 0 <= k < |b|
      ensures b[k].left.Some? ==> b[k].left.value.Node?
      ensures b[k].right.Some? ==> b[k].right.value.Node?
      ensures b[k].value in OperatorPrecedences && b[k].value in ops
    {
      assert KeptOrDeeper(a, k, a[k].left, b[k].left) && KeptOrDeeper(a, k, a[k].right, b[k].right);
      assert b[k].value == a[k].value;
    }
    if |b| > 0 {
      TokenStage(ops);
      RootExists(GetOperators(ops));
    }
  }

  /** `ConstructOperationTree`: tokenise, link, add the operands as leaves and pick the
      root. The result is a complete arena of operator tokens over operand
      leaves, and it has a root exactly when it has a token. */
  function ConstructOperationTree(ops: string, vars: string): (r: (seq<Token>, Option<nat>))
    requires OperatorString(ops)
    requires EmptySlots(LinkedOperators(ops)) <= |vars|
    ensures |r.0| == NonParentheses(ops)
    ensures Descending(r.0) && Complete(r.0)
    ensures TokensFrom(r.0, ops) && LeavesFrom(r.0, vars)
    ensures r.1.Some? <==> |r.0| > 0
    ensures r.1.Some? ==> r.1.value < |r.0| && !r.0[r.1.value].hasParent
  {
    var linked := LinkedOperators(ops);
    var filled := AddVariablesAsLeaves(linked, vars).0;
    TreeShape(ops, vars);
    (filled, HeadOfTree(filled))
  }

  lemma TreeShape(ops: string, vars: string)
    requires OperatorString(ops)
    requires EmptySlots(LinkedOperators(ops)) <= |vars|
    ensures |AddVariablesAsLeaves(LinkedOperators(ops), vars).0| == NonParentheses(ops)
    ensures Descending(AddVariablesAsLeaves(LinkedOperators(ops), vars).0)
    ensures TokensFrom(AddVariablesAsLeaves(LinkedOperators(ops), vars).0, ops)
    ensures LeavesFrom(AddVariablesAsLeaves(LinkedOperators(ops), vars).0, vars)
    ensures NonParentheses(ops) > 0 ==>
      exists k :: 0 <= k < NonParentheses(ops) && !AddVariablesAsLeaves(LinkedOperators(ops), vars).0[k].hasParent
  {
    var b := LinkedOperators(ops);
    LinkedShape(ops);
    LeafPassShape(b, vars);
    LeafPassDescending(b, vars);
    var c := AddVariablesAsLeaves(b, vars).0;
    forall k | 0 <= k < |c|
      ensures c[k].value in OperatorPrecedences && c[k].value in ops
      ensures c[k].left.Some? && c[k].left.value.Leaf? ==> c[k].left.value.value in vars
      ensures c[k].right.Some? && c[k].right.value.Leaf? ==> c[k].right.value.value in vars
    {
      assert FilledFrom(b[k].left, c[k].left, vars) && FilledFrom(b[k].right, c[k].right, vars);
    }
    if |b| > 0 {
      var k :| 0 <= k < |b| && !b[k].hasParent;
      assert !c[k].hasParent;
    }
  }

  /** The infix strings the converter turns into a string: at least one
      operator, else the root is missing (a null dereference in `Interpret`), and
      at least one operand per empty slot, else the leaf pass indexes past
      the operands (in `AddVariablesAsLeafs`). */
  predicate Interpretable(infix: string) {
    var (vars, ops) := GetVariablesAndOperators(infix);
    NonParentheses(ops) > 0 && EmptySlots(LinkedOperators(ops)) <= |vars|
  }

  /** `Interpret`: the postfix string of an infix string. It is a
      well-formed postfix expression over the four operators (every operator
      finds two operands and one value is left) and uses only characters of
      the infix string. */
  function Interpret(infix: string): (postfix: string)
    requires Interpretable(infix)
    ensures WellFormedPostfix(postfix, OperatorPrecedences.Keys)
    ensures forall c :: c in postfix ==> c in infix
  {
    var (vars, ops) := GetVariablesAndOperators(infix);
    var (ts, root) := ConstructOperationTree(ops, vars);
    InterpretShape(infix, vars, ops, ts);
    PostfixWellFormed(ts, root.value, OperatorPrecedences.Keys);
    PostfixChars(ts, root.value, set c | c in infix);
    Postfix(ts, root.value)
  }

  lemma InterpretShape(infix: string, vars: string, ops: string, ts: seq<Token>)
    requires (vars, ops) == GetVariablesAndOperators(infix)
    requires TokensFrom(ts, ops) && LeavesFrom(ts, vars)
    ensures TokensAreOperators(ts, OperatorPrecedences.Keys)
    ensures LeavesAreOperands(ts, OperatorPrecedences.Keys)
    ensures forall k :: 0 <= k < |ts| ==> ts[k].value in set c | c in infix
    ensures forall k :: 0 <= k < |ts| ==>
      && (ts[k].left.Some? && ts[k].left.value.Leaf? ==> ts[k].left.value.value in set c | c in infix)
      && (ts[k].right.Some? && ts[k].right.value.Leaf? ==> ts[k].right.value.value in set c | c in infix)
  {
    ScanPartition(infix);
    assert multiset(vars) + multiset(ops) == multiset(infix);
    forall c | c in vars
      ensures c in infix && c !in OperatorPrecedences
    {
      assert c in multiset(vars);
      assert c in multiset(infix);
      var k :| 0 <= k < |vars| && vars[k] == c;
      assert !CharIsOperator(vars[k]);
    }
    forall c | c in ops
      ensures c in infix
    {
      assert c in multiset(ops);
      assert c in multiset(infix);
    }
  }
}

=== FILE: linking.dfy ===
/**
  The three linking passes of `InfixToPostfix` over the token arena, and the
  choice of the root:
  - the same-depth pass (`ConnectSameParenthesesDepth`) joins neighbouring
    tokens of equal depth by precedence;
  - the cross-depth pass (`ConnectDifferentParenthesesDepths`) hangs below
    each token the nearest parentless token one level deeper on either side;
  - the leaf pass (`AddVariablesAsLeafs`) fills every remaining empty slot
    with the next operand, left to right;
  - the root (`GetHeadOfTree`) is the first token without a parent.
 */
module Linking {
  import opened Wrappers
  import opened Operator

  /** `a` and `b` hold the same tokens, up to links and flags. */
  predicate SameLabels(a: seq<Token>, b: seq<Token>) {
    && |a| == |b|
    && forall k :: 0 <= k < |a| ==>
         a[k].value == b[k].value && a[k].depth == b[k].depth && a[k].precedence == b[k].precedence
  }

  /** No has-parent flag is cleared on the way from `a` to `b`. */
  predicate FlagsGrow(a: seq<Token>, b: seq<Token>)
    requires |a| == |b|
  {
    forall k :: 0 <= k < |a| ==> a[k].hasParent ==> b[k].hasParent
  }

  /** Every token is fresh: no children, no parent. */
  predicate AllFresh(ts: seq<Token>) {
    forall k :: 0 <= k < |ts| ==> Fresh(ts[k])
  }

  // ---------------------------------------------------------------------
  // Same-depth pass

  /** Step `k` of the same-depth pass makes token `k-1` the left child of
      token `k`: same depth, and `k` binds no tighter than `k-1`. */
  predicate JoinsLeft(ts: seq<Token>, k: nat)
    requires k < |ts|
  {
    0 < k && ts[k - 1].depth == ts[k].depth && !(ts[k].precedence < ts[k - 1].precedence)
  }

  /** Step `k` of the same-depth pass makes token `k` the right child of
      token `k-1`: same depth, and `k` binds strictly tighter. */
  predicate JoinsRight(ts: seq<Token>, k: nat)
    requires k < |ts|
  {
    0 < k && ts[k - 1].depth == ts[k].depth && ts[k].precedence < ts[k - 1].precedence
  }

  /** Step `i` of the same-depth pass, on tokens `i-1` and `i`. */
  function LinkSameDepth(ts: seq<Token>, i: nat): (r: seq<Token>)
    requires 1 <= i < |ts|
    ensures SameLabels(r, ts)
  {
    var op, prev := ts[i], ts[i - 1];
    if op.depth != prev.depth then ts
    else if op.precedence < prev.precedence then
      ts[i - 1 := prev.(right := Some(Node(i)))][i := op.(hasParent := true)]
    else
      ts[i := op.(left := Some(Node(i - 1)))][i - 1 := prev.(hasParent := true)]
  }

  /** Steps `i`, `i+1`, ... of the same-depth pass. */
  function ConnectSameDepthFrom(ts: seq<Token>, i: nat): (r: seq<Token>)
    requires 1 <= i
    ensures SameLabels(r, ts)
    decreases |ts| - i
  {
    if i >= |ts| then ts else ConnectSameDepthFrom(LinkSameDepth(ts, i), i + 1)
  }

  /** The same-depth pass: steps 1 .. |ts|-1. */
  function ConnectSameDepth(ts: seq<Token>): (r: seq<Token>)
    ensures SameLabels(r, ts)
  {
    ConnectSameDepthFrom(ts, 1)
  }

  /** What steps 1 .. i-1 of the same-depth pass do to `ts`, stated slot by
      slot: the left slot of `k` is set by step `k` alone, the right slot of
      `k` by step `k+1` alone, and the flag of `k` by whichever of the two
      made `k` a child. */
  function SameDepthLinks(ts: seq<Token>, i: nat): (r: seq<Token>)
    ensures |r| == |ts|
  {
    seq(|ts|, k requires 0 <= k < |ts| =>
      ts[k].(
        left := if k < i && JoinsLeft(ts, k) then Some(Node(k - 1)) else ts[k].left,
        right := if k + 1 < i && k + 1 < |ts| && JoinsRight(ts, k + 1) then Some(Node(k + 1)) else ts[k].right,
        hasParent := ts[k].hasParent
                     || (k < i && JoinsRight(ts, k))
                     || (k + 1 < i && k + 1 < |ts| && JoinsLeft(ts, k + 1))))
  }

  lemma SameDepthLinksStep(ts: seq<Token>, i: nat)
    requires 1 <= i < |ts|
    ensures LinkSameDepth(SameDepthLinks(ts, i), i) == SameDepthLinks(ts, i + 1)
  {
    var a, b := LinkSameDepth(SameDepthLinks(ts, i), i), SameDepthLinks(ts, i + 1);
    forall k | 0 <= k < |ts|
      ensures a[k] == b[k]
    {
    }
  }

  lemma {:induction false} SameDepthLinksFrom(ts: seq<Token>, i: nat)
    requires 1 <= i <= |ts|
    ensures ConnectSameDepthFrom(SameDepthLinks(ts, i), i) == SameDepthLinks(ts, |ts|)
    decreases |ts| - i
  {
    if i < |ts| {
      SameDepthLinksStep(ts, i);
      SameDepthLinksFrom(ts, i + 1);
    }
  }

  /** The same-depth pass equals its slot-by-slot description: each
      neighbouring pair at equal depth is joined exactly once, the tighter
      token going below, ties making the earlier token the left child. */
  lemma ConnectSameDepthRule(ts: seq<Token>)
    ensures ConnectSameDepth(ts) == SameDepthLinks(ts, |ts|)
  {
    if |ts| == 0 {
    } else {
      assert SameDepthLinks(ts, 1) == ts;
      SameDepthLinksFrom(ts, 1);
    }
  }

  /** Each filled slot of token `k` holds the neighbour on its side, at the
      same depth. */
  predicate AdjacentAt(ts: seq<Token>, k: nat)
    requires k < |ts|
  {
    && (ts[k].left.Some? ==> 0 < k && ts[k].left == Some(Node(k - 1)) && ts[k - 1].depth == ts[k].depth)
    && (ts[k].right.Some? ==> k + 1 < |ts| && ts[k].right == Some(Node(k + 1)) && ts[k + 1].depth == ts[k].depth)
  }

  /** Every filled slot holds the neighbour on its side, at the same depth. */
  predicate AdjacentLinks(ts: seq<Token>) {
    forall k :: 0 <= k < |ts| ==> AdjacentAt(ts, k)
  }

  /** On fresh tokens the same-depth pass only joins neighbours of equal
      depth, every such join goes down the termination order, and a token
      has a parent exactly when one of its two steps made it a child. */
  lemma ConnectSameDepthShape(ts: seq<Token>)
    requires AllFresh(ts)
    ensures AdjacentLinks(ConnectSameDepth(ts))
    ensures Descending(ConnectSameDepth(ts))
    ensures forall k :: 0 <= k < |ts| ==>
      ConnectSameDepth(ts)[k].hasParent == (JoinsRight(ts, k) || (k + 1 < |ts| && JoinsLeft(ts, k + 1)))
  {
    ConnectSameDepthRule(ts);
    var r := SameDepthLinks(ts, |ts|);
    forall k | 0 <= k < |ts|
      ensures AdjacentAt(r, k)
      ensures Below(r, k, r[k].left) && Below(r, k, r[k].right)
    {
      if 0 < k {
        assert r[k - 1].depth == ts[k - 1].depth;
      }
      if k + 1 < |ts| {
        assert r[k + 1].depth == ts[k + 1].depth && r[k + 1].precedence == ts[k + 1].precedence;
      }
    }
  }

  // ---------------------------------------------------------------------
  // Cross-depth pass

  /** The left scan: walking left from `j` over the run of tokens at depth
      `d`, the first one without a parent; none when the run is empty or all
      of it already has a parent. */
  function ScanLeft(ts: seq<Token>, d: int, j: int): (r: Option<nat>)
    requires -1 <= j < |ts|
    ensures r.Some? ==> r.value <= j && ts[r.value].depth == d && !ts[r.value].hasParent
    decreases j + 1
  {
    if j < 0 then None
    else if ts[j].depth != d then None
    else if !ts[j].hasParent then Some(j)
    else ScanLeft(ts, d, j - 1)
  }

  /** The left scan stops at the nearest parentless token of the run: every
      token it passed over is in the run and already has a parent. When it
      finds nothing, every token of the run already has a parent. */
  lemma {:induction false} ScanLeftNearest(ts: seq<Token>, d: int, j: int)
    requires -1 <= j < |ts|
    ensures ScanLeft(ts, d, j).Some? ==>
      forall k :: ScanLeft(ts, d, j).value < k <= j ==> ts[k].depth == d && ts[k].hasParent
    ensures ScanLeft(ts, d, j).None? ==>
      forall k :: 0 <= k <= j && (forall m :: k <= m <= j ==> ts[m].depth == d) ==> ts[k].hasParent
    decreases j + 1
  {
    if 0 <= j && ts[j].depth == d && ts[j].hasParent {
      ScanLeftNearest(ts, d, j - 1);
    }
  }

  /** The right scan, symmetric to `ScanLeft`, walking right from `j`. */
  function ScanRight(ts: seq<Token>, d: int, j: nat): (r: Option<nat>)
    requires j <= |ts|
    ensures r.Some? ==> j <= r.value < |ts| && ts[r.value].depth == d && !ts[r.value].hasParent
    decreases |ts| - j
  {
    if j == |ts| then None
    else if ts[j].depth != d then None
    else if !ts[j].hasParent then Some(j)
    else ScanRight(ts, d, j + 1)
  }

  /** The right scan stops at the nearest parentless token of the run. */
  lemma {:induction false} ScanRightNearest(ts: seq<Token>, d: int, j: nat)
    requires j <= |ts|
    ensures ScanRight(ts, d, j).Some? ==>
      forall k :: j <= k < ScanRight(ts, d, j).value ==> ts[k].depth == d && ts[k].hasParent
    ensures ScanRight(ts, d, j).None? ==>
      forall k :: j <= k < |ts| && (forall m :: j <= m <= k ==> ts[m].depth == d) ==> ts[k].hasParent
    decreases |ts| - j
  {
    if j < |ts| && ts[j].depth == d && ts[j].hasParent {
      ScanRightNearest(ts, d, j + 1);
    }
  }

  /** `l` replaces slot `before` of token `i` only by a token one level deeper
      than `i`. */
  predicate KeptOrDeeper(ts: seq<Token>, i: nat, before: Option<Link>, l: Option<Link>)
    requires i < |ts|
  {
    || l == before
    || (&& l.Some? && l.value.Node? && l.value.index < |ts|
        && ts[l.value.index].depth == ts[i].depth + 1)
  }

  /** Tokens `a` and `b` carry the same character, depth and precedence. */
  predicate SameLabel(a: Token, b: Token) {
    a.value == b.value && a.depth == b.depth && a.precedence == b.precedence
  }

  /** Token `j`, left of `i`, is in the run of tokens one level deeper than
      `i` that ends just before `i`. */
  predicate LeftRun(ts: seq<Token>, i: nat, j: nat)
    requires j < i < |ts|
  {
    forall m :: j <= m < i ==> ts[m].depth == ts[i].depth + 1
  }

  /** Token `j`, right of `i`, is in the run of tokens one level deeper than
      `i` that starts just after `i`. */
  predicate RightRun(ts: seq<Token>, i: nat, j: nat)
    requires i < j < |ts|
  {
    forall m :: i < m <= j ==> ts[m].depth == ts[i].depth + 1
  }

  /** Every token strictly between `a` and `b` already has a parent. */
  predicate ParentedBetween(ts: seq<Token>, a: nat, b: nat)
    requires a <= b <= |ts|
  {
    forall m :: a < m < b ==> ts[m].hasParent
  }

  /** The left half of `ConnectDifferentParenthesesDepths` for token `i`: link
      the left scan's token as the left child and flag it. */
  function AttachLeft(ts: seq<Token>, i: nat): (r: seq<Token>)
    requires i < |ts|
    ensures |r| == |ts|
    ensures forall k :: 0 <= k < |ts| ==> StepEffect(ts, r, i, k)
    ensures r[i].right == ts[i].right
    ensures r[i].left != ts[i].left ==>
      && 0 < i && ts[i - 1].depth == ts[i].depth + 1
      && r[i].left.Some? && r[i].left.value.Node?
      && var j := r[i].left.value.index;
         j < i && ts[j].depth == ts[i].depth + 1 && !ts[j].hasParent && r[j].hasParent
  {
    if i == 0 then ts
    else
      match ScanLeft(ts, ts[i].depth + 1, i - 1)
      case None => ts
      case Some(j) => ts[i := ts[i].(left := Some(Node(j)))][j := ts[j].(hasParent := true)]
  }

  /** The right half of `ConnectDifferentParenthesesDepths` for token `i`:
      link the right scan's token as the right child and flag it. */
  function AttachRight(ts: seq<Token>, i: nat): (r: seq<Token>)
    requires i < |ts|
    ensures |r| == |ts|
    ensures forall k :: 0 <= k < |ts| ==> StepEffect(ts, r, i, k)
    ensures r[i].left == ts[i].left
    ensures r[i].right != ts[i].right ==>
      && i + 1 < |ts| && ts[i + 1].depth == ts[i].depth + 1
      && r[i].right.Some? && r[i].right.value.Node?
      && var j := r[i].right.value.index;
         i < j < |ts| && ts[j].depth == ts[i].depth + 1 && !ts[j].hasParent && r[j].hasParent
  {
    if i == |ts| - 1 then ts
    else
      match ScanRight(ts, ts[i].depth + 1, i + 1)
      case None => ts
      case Some(j) => ts[i := ts[i].(right := Some(Node(j)))][j := ts[j].(hasParent := true)]
  }

  /** The linking rule of the left half: when some token of the left run has
      no parent, the nearest such token becomes the left child of `i` and is
      flagged, and nothing else changes; when none has, nothing changes. */
  lemma AttachLeftRule(ts: seq<Token>, i: nat)
    requires i < |ts|
    ensures (forall j :: 0 <= j < i && LeftRun(ts, i, j) ==> ts[j].hasParent) ==> AttachLeft(ts, i) == ts
    ensures forall j :: 0 <= j < i && LeftRun(ts, i, j) && !ts[j].hasParent && ParentedBetween(ts, j, i) ==>
      AttachLeft(ts, i) == ts[i := ts[i].(left := Some(Node(j)))][j := ts[j].(hasParent := true)]
  {
    if 0 < i {
      ScanLeftNearest(ts, ts[i].depth + 1, i - 1);
    }
  }

  /** The linking rule of the right half, symmetric to `AttachLeftRule`. */
  lemma AttachRightRule(ts: seq<Token>, i: nat)
    requires i < |ts|
    ensures (forall j :: i < j < |ts| && RightRun(ts, i, j) ==> ts[j].hasParent) ==> AttachRight(ts, i) == ts
    ensures forall j :: i < j < |ts| && RightRun(ts, i, j) && !ts[j].hasParent && ParentedBetween(ts, i, j) ==>
      AttachRight(ts, i) == ts[i := ts[i].(right := Some(Node(j)))][j := ts[j].(hasParent := true)]
  {
    if i + 1 < |ts| {
      ScanRightNearest(ts, ts[i].depth + 1, i + 1);
    }
  }

  /** Step `i` of the cross-depth pass: the left scan, then the right scan. */
  function CrossStep(ts: seq<Token>, i: nat): (r: seq<Token>)
    requires i < |ts|
    ensures |r| == |ts|
  {
    AttachRight(AttachLeft(ts, i), i)
  }

  /** What step `i` does to token `k` other than in the slots of `i`: the
      labels stay, a flag is never cleared and is only set on a token one
      level deeper than `i`, and the slots of every other token stay. */
  predicate StepEffect(ts: seq<Token>, r: seq<Token>, i: nat, k: nat)
    requires |r| == |ts| && i < |ts| && k < |ts|
  {
    && SameLabel(ts[k], r[k])
    && (ts[k].hasParent ==> r[k].hasParent)
    && (r[k].hasParent && !ts[k].hasParent ==> ts[k].depth == ts[i].depth + 1)
    && (k != i ==> r[k].left == ts[k].left && r[k].right == ts[k].right)
  }

  /** Step `i` of the cross-depth pass changes only the two slots of token `i`,
      and sets new flags only on tokens one level deeper than `i`. A slot of `i` changes only when
      the neighbour on that side is one level deeper, and then to a token one
      level deeper that had no parent and now has one. */
  lemma CrossStepEffect(ts: seq<Token>, i: nat)
    requires i < |ts|
    ensures forall k :: 0 <= k < |ts| ==> StepEffect(ts, CrossStep(ts, i), i, k)
    ensures KeptOrDeeper(ts, i, ts[i].left, CrossStep(ts, i)[i].left)
    ensures KeptOrDeeper(ts, i, ts[i].right, CrossStep(ts, i)[i].right)
    ensures CrossStep(ts, i)[i].left != ts[i].left ==>
      && 0 < i && ts[i - 1].depth == ts[i].depth + 1
      && var j := CrossStep(ts, i)[i].left.value.index;
         j < i && !ts[j].hasParent && CrossStep(ts, i)[j].hasParent
    ensures CrossStep(ts, i)[i].right != ts[i].right ==>
      && i + 1 < |ts| && ts[i + 1].depth == ts[i].depth + 1
      && var j := CrossStep(ts, i)[i].right.value.index;
         i < j < |ts| && !ts[j].hasParent && CrossStep(ts, i)[j].hasParent
  {
    var d := ts[i].depth + 1;
    var a := AttachLeft(ts, i);
    var r := CrossStep(ts, i);
    var sl := if i == 0 then None else ScanLeft(ts, d, i - 1);
    if sl.Some? {
      var j := sl.value;
      assert a == ts[i := ts[i].(left := Some(Node(j)))][j := ts[j].(hasParent := true)];
    } else {
      assert a == ts;
    }
    assert forall k :: 0 <= k < |ts| ==> StepEffect(ts, a, i, k);
    assert a[i].right == ts[i].right && a[i].hasParent == ts[i].hasParent;
    var sr := if i == |ts| - 1 then None else ScanRight(a, d, i + 1);
    if sr.Some? {
      var j := sr.value;
      assert r == a[i := a[i].(right := Some(Node(j)))][j := a[j].(hasParent := true)];
    } else {
      assert r == a;
    }
    assert r[i].left == a[i].left;
    forall k | 0 <= k < |ts|
      ensures StepEffect(ts, r, i, k)
    {
      assert StepEffect(ts, a, i, k);
    }
  }

  /** Steps `i`, `i+1`, ... of the cross-depth pass. */
  function ConnectDifferentDepthsFrom(ts: seq<Token>, i: nat): (r: seq<Token>)
    ensures |r| == |ts|
    decreases |ts| - i
  {
    if i >= |ts| then ts
    else ConnectDifferentDepthsFrom(CrossStep(ts, i), i + 1)
  }

  /** The cross-depth pass: every token keeps its labels and no flag is
      cleared, a slot is kept or replaced by a token one level deeper than its
      owner, and a slot whose neighbour is not one level deeper is kept.
      Afterwards every token next to a token one level shallower has a
      parent. */
  function ConnectDifferentDepths(ts: seq<Token>): (r: seq<Token>)
    ensures |r| == |ts|
    ensures forall k :: 0 <= k < |ts| ==> PassEffect(ts, r, 0, k)
    ensures forall k :: 0 <= k < |ts| ==> Adopted(ts, r, 0, k)
  {
    CrossDepthEffect(ts, 0);
    CrossDepthAdopts(ts, 0);
    ConnectDifferentDepthsFrom(ts, 0)
  }

  /** What steps `i`, `i+1`, ... do to token `k`: the labels stay, no flag is
      cleared, the slots of tokens before `i` stay, every slot is kept or
      replaced by a token one level deeper, and a slot of a token from `i` on
      is kept when the neighbour on its side is not one level deeper. */
  predicate PassEffect(ts: seq<Token>, r: seq<Token>, i: nat, k: nat)
    requires |r| == |ts| && k < |ts|
  {
    && SameLabel(ts[k], r[k])
    && (ts[k].hasParent ==> r[k].hasParent)
    && (k < i ==> r[k].left == ts[k].left && r[k].right == ts[k].right)
    && KeptOrDeeper(ts, k, ts[k].left, r[k].left)
    && KeptOrDeeper(ts, k, ts[k].right, r[k].right)
    && (i <= k && (k == 0 || ts[k - 1].depth != ts[k].depth + 1) ==> r[k].left == ts[k].left)
    && (i <= k && (k + 1 == |ts| || ts[k + 1].depth != ts[k].depth + 1) ==> r[k].right == ts[k].right)
  }

  lemma {:induction false} CrossDepthEffect(ts: seq<Token>, i: nat)
    ensures forall k :: 0 <= k < |ts| ==> PassEffect(ts, ConnectDifferentDepthsFrom(ts, i), i, k)
    decreases |ts| - i
  {
    if i < |ts| {
      var y := CrossStep(ts, i);
      CrossStepEffect(ts, i);
      CrossDepthEffect(y, i + 1);
      var r := ConnectDifferentDepthsFrom(y, i + 1);
      forall k | 0 <= k < |ts|
        ensures PassEffect(ts, r, i, k)
      {
        assert StepEffect(ts, y, i, k);
        assert PassEffect(y, r, i + 1, k);
        if 0 < k {
          assert StepEffect(ts, y, i, k - 1);
        }
        if k + 1 < |ts| {
          assert StepEffect(ts, y, i, k + 1);
        }
        if k != i {
          if r[k].left.Some? && r[k].left.value.Node? && r[k].left.value.index < |ts| {
            assert StepEffect(ts, y, i, r[k].left.value.index);
          }
          if r[k].right.Some? && r[k].right.value.Node? && r[k].right.value.index < |ts| {
            assert StepEffect(ts, y, i, r[k].right.value.index);
          }
        }
      }
    } else {
      forall k | 0 <= k < |ts|
        ensures PassEffect(ts, ts, i, k)
      {
      }
    }
  }

  /** After steps `i`, `i+1`, ..., every token next to a token `k >= i` one
      level shallower has a parent: step `k` adopts it, as the nearest
      parentless token of its run, unless it already had one. */
  predicate Adopted(ts: seq<Token>, r: seq<Token>, i: nat, k: nat)
    requires |r| == |ts| && k < |ts|
  {
    && (i <= k && 0 < k && ts[k - 1].depth == ts[k].depth + 1 ==> r[k - 1].hasParent)
    && (i <= k && k + 1 < |ts| && ts[k + 1].depth == ts[k].depth + 1 ==> r[k + 1].hasParent)
  }

  /** Step `i` leaves its deeper neighbours with a parent: a parentless one
      is the nearest parentless token of its run, so the scan adopts it. */
  lemma CrossStepAdopts(ts: seq<Token>, i: nat)
    requires i < |ts|
    ensures 0 < i && ts[i - 1].depth == ts[i].depth + 1 ==> CrossStep(ts, i)[i - 1].hasParent
    ensures i + 1 < |ts| && ts[i + 1].depth == ts[i].depth + 1 ==> CrossStep(ts, i)[i + 1].hasParent
  {
    var a := AttachLeft(ts, i);
    var y := CrossStep(ts, i);
    AttachLeftRule(ts, i);
    AttachRightRule(a, i);
    if 0 < i && ts[i - 1].depth == ts[i].depth + 1 {
      if !ts[i - 1].hasParent {
        assert LeftRun(ts, i, i - 1) && ParentedBetween(ts, i - 1, i);
      }
      assert StepEffect(ts, a, i, i - 1);
      assert StepEffect(a, y, i, i - 1);
    }
    if i + 1 < |ts| && ts[i + 1].depth == ts[i].depth + 1 {
      assert StepEffect(ts, a, i, i + 1);
      if !a[i + 1].hasParent {
        assert RightRun(a, i, i + 1) && ParentedBetween(a, i, i + 1);
      }
    }
  }

  lemma {:induction false} CrossDepthAdopts(ts: seq<Token>, i: nat)
    ensures forall k :: 0 <= k < |ts| ==> Adopted(ts, ConnectDifferentDepthsFrom(ts, i), i, k)
    decreases |ts| - i
  {
    if i < |ts| {
      var y := CrossStep(ts, i);
      var r := ConnectDifferentDepthsFrom(y, i + 1);
      CrossStepEffect(ts, i);
      CrossStepAdopts(ts, i);
      CrossDepthEffect(y, i + 1);
      CrossDepthAdopts(y, i + 1);
      forall k | 0 <= k < |ts|
        ensures Adopted(ts, r, i, k)
      {
        assert StepEffect(ts, y, i, k);
        if 0 < k {
          assert StepEffect(ts, y, i, k - 1) && PassEffect(y, r, i + 1, k - 1);
        }
        if k + 1 < |ts| {
          assert StepEffect(ts, y, i, k + 1) && PassEffect(y, r, i + 1, k + 1);
        }
        if i < k {
          assert Adopted(y, r, i + 1, k);
        }
      }
    } else {
      forall k | 0 <= k < |ts|
        ensures Adopted(ts, ts, i, k)
      {
      }
    }
  }

  /** The cross-depth pass keeps every token's labels, never clears a flag,
      and replaces a slot only by a token one level deeper than the slot's
      owner. */
  lemma CrossDepthLinks(ts: seq<Token>)
    ensures SameLabels(ConnectDifferentDepths(ts), ts)
    ensures FlagsGrow(ts, ConnectDifferentDepths(ts))
    ensures forall k :: 0 <= k < |ts| ==>
      && KeptOrDeeper(ts, k, ts[k].left, ConnectDifferentDepths(ts)[k].left)
      && KeptOrDeeper(ts, k, ts[k].right, ConnectDifferentDepths(ts)[k].right)
  {
    CrossDepthEffect(ts, 0);
    var r := ConnectDifferentDepths(ts);
    forall k | 0 <= k < |ts|
      ensures SameLabel(ts[k], r[k]) && (ts[k].hasParent ==> r[k].hasParent)
      ensures KeptOrDeeper(ts, k, ts[k].left, r[k].left) && KeptOrDeeper(ts, k, ts[k].right, r[k].right)
    {
      assert PassEffect(ts, r, 0, k);
    }
  }

  /** The cross-depth pass keeps every link going down the termination
      order, so `Postfix` still terminates. */
  lemma CrossDepthDescending(ts: seq<Token>)
    requires Descending(ts)
    ensures Descending(ConnectDifferentDepths(ts))
  {
    CrossDepthEffect(ts, 0);
    var r := ConnectDifferentDepths(ts);
    forall k | 0 <= k < |r|
      ensures Below(r, k, r[k].left) && Below(r, k, r[k].right)
    {
      assert PassEffect(ts, r, 0, k);
      assert Below(ts, k, ts[k].left) && Below(ts, k, ts[k].right);
      if r[k].left.Some? && r[k].left.value.Node? && r[k].left.value.index < |ts| {
        assert PassEffect(ts, r, 0, r[k].left.value.index);
      }
      if r[k].right.Some? && r[k].right.value.Node? && r[k].right.value.index < |ts| {
        assert PassEffect(ts, r, 0, r[k].right.value.index);
      }
    }
  }

  /** The cross-depth pass never touches a token of the shallowest depth `m`:
      every token it flags is one level below the token that adopts it. */
  lemma {:induction false} ConnectDifferentDepthsKeepsShallowest(ts: seq<Token>, i: nat, m: int)
    requires forall k :: 0 <= k < |ts| ==> ts[k].depth >= m
    ensures forall k :: 0 <= k < |ts| && ts[k].depth == m ==>
      ConnectDifferentDepthsFrom(ts, i)[k].hasParent == ts[k].hasParent
    decreases |ts| - i
  {
    if i < |ts| {
      var y := CrossStep(ts, i);
      CrossStepEffect(ts, i);
      forall k | 0 <= k < |ts|
        ensures y[k].depth >= m
        ensures ts[k].depth == m ==> y[k].depth == m && y[k].hasParent == ts[k].hasParent
      {
        assert StepEffect(ts, y, i, k);
      }
      ConnectDifferentDepthsKeepsShallowest(y, i + 1, m);
    }
  }

  /** After the same-depth pass on fresh tokens, the cross-depth pass keeps
      every link the same-depth pass made: such a slot faces a neighbour of
      equal depth, so the scan on that side finds no run one level deeper. */
  lemma CrossDepthKeepsSameDepthLinks(ts: seq<Token>)
    requires AllFresh(ts)
    ensures forall k :: 0 <= k < |ts| ==>
      && (ConnectSameDepth(ts)[k].left.Some? ==>
            ConnectDifferentDepths(ConnectSameDepth(ts))[k].left == ConnectSameDepth(ts)[k].left)
      && (ConnectSameDepth(ts)[k].right.Some? ==>
            ConnectDifferentDepths(ConnectSameDepth(ts))[k].right == ConnectSameDepth(ts)[k].right)
  {
    ConnectSameDepthShape(ts);
    var a := ConnectSameDepth(ts);
    CrossDepthEffect(a, 0);
    var r := ConnectDifferentDepths(a);
    forall k | 0 <= k < |a|
      ensures a[k].left.Some? ==> r[k].left == a[k].left
      ensures a[k].right.Some? ==> r[k].right == a[k].right
    {
      assert AdjacentAt(a, k);
      assert PassEffect(a, r, 0, k);
    }
  }


  // ---------------------------------------------------------------------
  // Leaf pass

  /** Empty child slots of one token. */
  function Holes(t: Token): nat {
    (if t.left.None? then 1 else 0) + (if t.right.None? then 1 else 0)
  }

  /** Empty child slots of an arena. */
  function EmptySlots(ts: seq<Token>): nat {
    if |ts| == 0 then 0 else Holes(ts[0]) + EmptySlots(ts[1..])
  }

  /** Empty child slots of the tokens before index `k`. */
  function SlotsBefore(ts: seq<Token>, k: nat): nat
    requires k <= |ts|
  {
    if k == 0 then 0 else SlotsBefore(ts, k - 1) + Holes(ts[k - 1])
  }

  /** The loop body of `AddVariablesAsLeafs` for one token: an empty left slot
      takes operand `used`, then an empty right slot takes the next one. */
  function FillToken(t: Token, vars: string, used: nat): (r: (Token, nat))
    requires used + Holes(t) <= |vars|
  {
    var (t1, u1) := if t.left.None? then (t.(left := Some(Leaf(vars[used]))), used + 1) else (t, used);
    if t1.right.None? then (t1.(right := Some(Leaf(vars[u1]))), u1 + 1) else (t1, u1)
  }

  /** Tokens `i`, `i+1`, ... of the leaf pass, `used` operands consumed so far. */
  function AddVariablesAsLeavesFrom(ts: seq<Token>, vars: string, i: nat, used: nat): (r: (seq<Token>, nat))
    requires i <= |ts| && used + EmptySlots(ts[i..]) <= |vars|
    ensures r.1 == used + EmptySlots(ts[i..])
    ensures |r.0| == |ts|
    ensures forall k :: 0 <= k < i ==> r.0[k] == ts[k]
    ensures forall k :: i <= k < |ts| ==>
      && r.0[k].left.Some? && r.0[k].right.Some?
      && r.0[k].(left := ts[k].left, right := ts[k].right) == ts[k]
    decreases |ts| - i
  {
    if i == |ts| then (ts, used)
    else
      assert ts[i..][1..] == ts[i + 1..];
      var (t, u) := FillToken(ts[i], vars, used);
      assert ts[i := t][i + 1..] == ts[i + 1..];
      AddVariablesAsLeavesFrom(ts[i := t], vars, i + 1, u)
  }

  /** The leaf pass. */
  function AddVariablesAsLeaves(ts: seq<Token>, vars: string): (r: (seq<Token>, nat))
    requires EmptySlots(ts) <= |vars|
    ensures Complete(r.0)
    ensures r.1 == EmptySlots(ts)
  {
    assert ts[0..] == ts;
    AddVariablesAsLeavesFrom(ts, vars, 0, 0)
  }

  /** The slots of token `k` after the leaf pass: an empty left slot gets the
      operand whose index is the number of empty slots before it; an empty
      right slot gets the one after that if the left slot was empty too. */
  predicate FilledInOrder(ts: seq<Token>, vars: string, r: seq<Token>, k: nat)
    requires k < |ts| && k < |r|
    requires SlotsBefore(ts, k) + Holes(ts[k]) <= |vars|
  {
    var before := SlotsBefore(ts, k);
    && r[k].left == (if ts[k].left.None? then Some(Leaf(vars[before])) else ts[k].left)
    && r[k].right == (if ts[k].right.None? then
                        Some(Leaf(vars[before + (if ts[k].left.None? then 1 else 0)]))
                      else ts[k].right)
    && r[k].(left := ts[k].left, right := ts[k].right) == ts[k]
  }

  lemma {:induction false} LeavesInOrderFrom(ts: seq<Token>, vars: string, x: seq<Token>, i: nat)
    requires i <= |ts| == |x| && x[i..] == ts[i..]
    requires EmptySlots(ts) <= |vars|
    requires SlotsBefore(ts, i) + EmptySlots(ts[i..]) == EmptySlots(ts)
    ensures forall k :: i <= k < |ts| ==> SlotsBefore(ts, k) + Holes(ts[k]) <= EmptySlots(ts)
    ensures forall k :: i <= k < |ts| ==>
      FilledInOrder(ts, vars, AddVariablesAsLeavesFrom(x, vars, i, SlotsBefore(ts, i)).0, k)
    decreases |ts| - i
  {
    if i < |ts| {
      assert ts[i..][1..] == ts[i + 1..];
      var (t, u) := FillToken(x[i], vars, SlotsBefore(ts, i));
      assert x[i] == ts[i];
      assert x[i := t][i + 1..] == ts[i + 1..];
      LeavesInOrderFrom(ts, vars, x[i := t], i + 1);
    }
  }

  /** The leaf pass consumes operands strictly left to right, token by token
      and left slot before right slot, exactly one per empty slot, and
      touches nothing but empty slots. */
  lemma LeavesInOrder(ts: seq<Token>, vars: string)
    requires EmptySlots(ts) <= |vars|
    ensures AddVariablesAsLeaves(ts, vars).1 == EmptySlots(ts)
    ensures forall k :: 0 <= k < |ts| ==> SlotsBefore(ts, k) + Holes(ts[k]) <= EmptySlots(ts)
    ensures forall k :: 0 <= k < |ts| ==> FilledInOrder(ts, vars, AddVariablesAsLeaves(ts, vars).0, k)
  {
    assert ts[0..] == ts;
    LeavesInOrderFrom(ts, vars, ts, 0);
  }

  /** A slot `l` after the leaf pass, where it held `before`: a filled slot
      is kept and an empty one gets an operand of `vars`. */
  predicate FilledFrom(before: Option<Link>, l: Option<Link>, vars: string) {
    if before.Some? then l == before else l.Some? && l.value.Leaf? && l.value.value in vars
  }

  /** The leaf pass keeps every label, flag and filled slot, and puts an
      operand of `vars` in every empty slot. */
  lemma LeafPassShape(ts: seq<Token>, vars: string)
    requires EmptySlots(ts) <= |vars|
    ensures SameLabels(AddVariablesAsLeaves(ts, vars).0, ts)
    ensures forall k :: 0 <= k < |ts| ==>
      && AddVariablesAsLeaves(ts, vars).0[k].hasParent == ts[k].hasParent
      && FilledFrom(ts[k].left, AddVariablesAsLeaves(ts, vars).0[k].left, vars)
      && FilledFrom(ts[k].right, AddVariablesAsLeaves(ts, vars).0[k].right, vars)
  {
    LeavesInOrder(ts, vars);
    var r := AddVariablesAsLeaves(ts, vars).0;
    forall k | 0 <= k < |ts|
      ensures SameLabel(r[k], ts[k]) && r[k].hasParent == ts[k].hasParent
      ensures FilledFrom(ts[k].left, r[k].left, vars) && FilledFrom(ts[k].right, r[k].right, vars)
    {
      assert FilledInOrder(ts, vars, r, k);
      assert r[k].(left := ts[k].left, right := ts[k].right) == ts[k];
    }
  }

  /** The leaf pass keeps every link going down the termination order. */
  lemma LeafPassDescending(ts: seq<Token>, vars: string)
    requires EmptySlots(ts) <= |vars| && Descending(ts)
    ensures Descending(AddVariablesAsLeaves(ts, vars).0)
  {
    LeafPassShape(ts, vars);
    var r := AddVariablesAsLeaves(ts, vars).0;
    forall k | 0 <= k < |r|
      ensures Below(r, k, r[k].left) && Below(r, k, r[k].right)
    {
      assert Below(ts, k, ts[k].left) && Below(ts, k, ts[k].right);
      assert FilledFrom(ts[k].left, r[k].left, vars) && FilledFrom(ts[k].right, r[k].right, vars);
    }
  }

  // ---------------------------------------------------------------------
  // Root

  /** The first token at or after `i` without a parent. */
  function FindUnparented(ts: seq<Token>, i: nat): (r: Option<nat>)
    requires i <= |ts|
    ensures r.Some? ==> i <= r.value < |ts| && !ts[r.value].hasParent
    ensures r.Some? ==> forall k :: i <= k < r.value ==> ts[k].hasParent
    ensures r.None? ==> forall k :: i <= k < |ts| ==> ts[k].hasParent
    decreases |ts| - i
  {
    if i == |ts| then None
    else if !ts[i].hasParent then Some(i)
    else FindUnparented(ts, i + 1)
  }

  /** The root: the first token without a parent, if any. */
  function HeadOfTree(ts: seq<Token>): (r: Option<nat>)
    ensures r.Some? <==> exists k :: 0 <= k < |ts| && !ts[k].hasParent
    ensures r.Some? ==> r.value < |ts| && !ts[r.value].hasParent
    ensures r.Some? ==> forall k :: 0 <= k < r.value ==> ts[k].hasParent
  {
    FindUnparented(ts, 0)
  }

  /** Walking right from a token that its own step did not flag, along
      equal-depth neighbours, ends at a token that neither of its steps
      flagged. */
  lemma {:induction false} UnflaggedRight(ts: seq<Token>, k: nat) returns (j: nat)
    requires k < |ts| && !JoinsRight(ts, k)
    ensures k <= j < |ts| && ts[j].depth == ts[k].depth
    ensures !JoinsRight(ts, j) && !(j + 1 < |ts| && JoinsLeft(ts, j + 1))
    decreases |ts| - k
  {
    if k + 1 < |ts| && JoinsLeft(ts, k + 1) {
      j := UnflaggedRight(ts, k + 1);
    } else {
      j := k;
    }
  }

  /** Walking left from any token along tokens that were flagged by their
      own step reaches one of equal depth that was not. */
  lemma {:induction false} NotJoinedRight(ts: seq<Token>, k: nat) returns (a: nat)
    requires k < |ts|
    ensures a <= k && ts[a].depth == ts[k].depth && !JoinsRight(ts, a)
    decreases k
  {
    if JoinsRight(ts, k) {
      a := NotJoinedRight(ts, k - 1);
    } else {
      a := k;
    }
  }

  /** Among the shallowest tokens, the same-depth pass leaves one without a
      parent: a run of equal-depth neighbours of length n gets n-1 joins,
      each flagging one token of the run. */
  lemma ShallowestUnflagged(ts: seq<Token>) returns (j: nat)
    requires |ts| > 0 && AllFresh(ts)
    ensures j < |ts| && ts[j].depth == MinDepth(ts)
    ensures !ConnectSameDepth(ts)[j].hasParent
  {
    var k :| 0 <= k < |ts| && ts[k].depth == MinDepth(ts);
    var a := NotJoinedRight(ts, k);
    j := UnflaggedRight(ts, a);
    ConnectSameDepthShape(ts);
  }

  /** With at least one token, the same-depth and cross-depth passes leave a
      token without a parent, so the root exists. */
  lemma RootExists(ts: seq<Token>)
    requires |ts| > 0 && AllFresh(ts)
    ensures HeadOfTree(ConnectDifferentDepths(ConnectSameDepth(ts))).Some?
  {
    var j := ShallowestUnflagged(ts);
    var a := ConnectSameDepth(ts);
    ConnectDifferentDepthsKeepsShallowest(a, 0, MinDepth(ts));
    assert !ConnectDifferentDepths(a)[j].hasParent;
  }
}

=== FILE: operator.dfy ===
/**
  The node type shared by both converters (the `Operator` class), modelled as
  a record in an arena: child references are indices into the same sequence of
  tokens, or operand leaves. Also the postorder serialisation `Postfix` and the
  stack discipline that makes a string a well-formed postfix expression.
 */
module Operator {
  import opened Wrappers

  /** A child reference: another token of the same arena, or an operand leaf. */
  datatype Link = Node(index: nat) | Leaf(value: char)

  /** An operator token: its character, parenthesis depth and precedence, its
      two child slots and its has-parent flag. */
  datatype Token = Token(
    value: char,
    depth: int,
    precedence: nat,
    left: Option<Link>,
    right: Option<Link>,
    hasParent: bool)

  /** A freshly created token: no children and no parent. */
  predicate Fresh(t: Token) {
    t.left.None? && t.right.None? && !t.hasParent
  }

  /** The deepest parenthesis depth of a non-empty arena. */
  function MaxDepth(ts: seq<Token>): (d: int)
    requires |ts| > 0
    ensures forall k :: 0 <= k < |ts| ==> ts[k].depth <= d
    ensures exists k :: 0 <= k < |ts| && ts[k].depth == d
  {
    if |ts| == 1 then ts[0].depth
    else
      var d := MaxDepth(ts[1..]);
      assert forall k :: 1 <= k < |ts| ==> ts[k] == ts[1..][k - 1];
      if ts[0].depth > d then ts[0].depth else d
  }

  /** The shallowest parenthesis depth of a non-empty arena. */
  function MinDepth(ts: seq<Token>): (d: int)
    requires |ts| > 0
    ensures forall k :: 0 <= k < |ts| ==> d <= ts[k].depth
    ensures exists k :: 0 <= k < |ts| && ts[k].depth == d
  {
    if |ts| == 1 then ts[0].depth
    else
      var d := MinDepth(ts[1..]);
      assert forall k :: 1 <= k < |ts| ==> ts[k] == ts[1..][k - 1];
      if ts[0].depth < d then ts[0].depth else d
  }

  /** Token `j` lies strictly below token `i` in the order (deeper; or as deep
      with tighter precedence; or as deep, as tight and further left). Every
      link the converter makes goes down this order, so `Postfix` terminates. */
  predicate Lower(ts: seq<Token>, j: nat, i: nat)
    requires j < |ts| && i < |ts|
  {
    || ts[j].depth > ts[i].depth
    || (ts[j].depth == ts[i].depth && ts[j].precedence < ts[i].precedence)
    || (ts[j].depth == ts[i].depth && ts[j].precedence == ts[i].precedence && j < i)
  }

  /** The child slot `l` of token `i` is empty, a leaf, or a token below `i`. */
  predicate Below(ts: seq<Token>, i: nat, l: Option<Link>)
    requires i < |ts|
  {
    l.Some? && l.value.Node? ==> l.value.index < |ts| && Lower(ts, l.value.index, i)
  }

  /** Every link of the arena goes down the termination order. */
  predicate Descending(ts: seq<Token>) {
    forall i :: 0 <= i < |ts| ==> Below(ts, i, ts[i].left) && Below(ts, i, ts[i].right)
  }

  /** Every child slot of every token is filled. */
  predicate Complete(ts: seq<Token>) {
    forall i :: 0 <= i < |ts| ==> ts[i].left.Some? && ts[i].right.Some?
  }

  /** Postorder serialisation of token `i`: left child, right child, then the
      token's own character. An empty slot contributes nothing (the `?.` of
      the source) and a leaf contributes its single character. */
  function Postfix(ts: seq<Token>, i: nat): (s: string)
    requires Descending(ts) && i < |ts|
    ensures |s| > 0 && s[|s| - 1] == ts[i].value
    decreases MaxDepth(ts) - ts[i].depth, ts[i].precedence, i, 1
  {
    ChildPostfix(ts, i, ts[i].left) + ChildPostfix(ts, i, ts[i].right) + [ts[i].value]
  }

  /** Serialisation of one child slot of token `i`. */
  function ChildPostfix(ts: seq<Token>, i: nat, l: Option<Link>): (s: string)
    requires Descending(ts) && i < |ts| && Below(ts, i, l)
    ensures s == "" <==> l.None?
    ensures l.Some? && l.value.Node? ==> s[|s| - 1] == ts[l.value.index].value
    decreases MaxDepth(ts) - ts[i].depth, ts[i].precedence, i, 0
  {
    match l
    case None => ""
    case Some(Leaf(c)) => [c]
    case Some(Node(j)) => Postfix(ts, j)
  }

  /** Net stack height after evaluating `w` left to right as a postfix
      expression, reading every character of `symbols` as a binary operator
      (pops two, pushes one) and every other character as an operand. */
  function Height(w: string, symbols: set<char>): int {
    if |w| == 0 then 0
    else Height(w[..|w| - 1], symbols) + (if w[|w| - 1] in symbols then -1 else 1)
  }

  /** `w` is a well-formed postfix expression: no operator ever finds fewer
      than two operands on the stack, and exactly one value is left. */
  predicate WellFormedPostfix(w: string, symbols: set<char>) {
    && Height(w, symbols) == 1
    && forall p :: 1 <= p <= |w| ==> Height(w[..p], symbols) >= 1
  }

  lemma {:induction false} HeightAppend(a: string, b: string, symbols: set<char>)
    ensures Height(a + b, symbols) == Height(a, symbols) + Height(b, symbols)
    decreases |b|
  {
    if |b| == 0 {
      assert a + b == a;
    } else {
      var b' := b[..|b| - 1];
      assert (a + b)[..|a + b| - 1] == a + b';
      HeightAppend(a, b', symbols);
    }
  }

  /** Joining two well-formed postfix expressions under a binary operator
      gives a well-formed postfix expression. */
  lemma {:induction false} WellFormedCombine(a: string, b: string, op: char, symbols: set<char>)
    requires WellFormedPostfix(a, symbols) && WellFormedPostfix(b, symbols)
    requires op in symbols
    ensures WellFormedPostfix(a + b + [op], symbols)
  {
    var w := a + b + [op];
    HeightAppend(a, b, symbols);
    assert w[..|w| - 1] == a + b;
    forall p | 1 <= p <= |w|
      ensures Height(w[..p], symbols) >= 1
    {
      if p <= |a| {
        assert w[..p] == a[..p];
      } else if p <= |a| + |b| {
        assert w[..p] == a + b[..p - |a|];
        HeightAppend(a, b[..p - |a|], symbols);
      } else {
        assert w[..p] == w;
        assert w[|w| - 1] == op;
      }
    }
  }

  /** Every operand leaf of the arena carries a non-operator character. */
  predicate LeavesAreOperands(ts: seq<Token>, symbols: set<char>) {
    forall i :: 0 <= i < |ts| ==>
      && (ts[i].left.Some? && ts[i].left.value.Leaf? ==> ts[i].left.value.value !in symbols)
      && (ts[i].right.Some? && ts[i].right.value.Leaf? ==> ts[i].right.value.value !in symbols)
  }

  /** Every token of the arena carries an operator character. */
  predicate TokensAreOperators(ts: seq<Token>, symbols: set<char>) {
    forall i :: 0 <= i < |ts| ==> ts[i].value in symbols
  }

  /** In a complete arena whose tokens are operators and whose leaves are
      operands, the serialisation of every token is a well-formed postfix
      expression. */
  lemma {:induction false} PostfixWellFormed(ts: seq<Token>, i: nat, symbols: set<char>)
    requires Descending(ts) && Complete(ts) && i < |ts|
    requires TokensAreOperators(ts, symbols) && LeavesAreOperands(ts, symbols)
    ensures WellFormedPostfix(Postfix(ts, i), symbols)
    decreases MaxDepth(ts) - ts[i].depth, ts[i].precedence, i, 1
  {
    ChildWellFormed(ts, i, ts[i].left, symbols);
    ChildWellFormed(ts, i, ts[i].right, symbols);
    WellFormedCombine(ChildPostfix(ts, i, ts[i].left), ChildPostfix(ts, i, ts[i].right), ts[i].value, symbols);
  }

  lemma {:induction false} ChildWellFormed(ts: seq<Token>, i: nat, l: Option<Link>, symbols: set<char>)
    requires Descending(ts) && Complete(ts) && i < |ts| && Below(ts, i, l)
    requires TokensAreOperators(ts, symbols) && LeavesAreOperands(ts, symbols)
    requires l == ts[i].left || l == ts[i].right
    ensures WellFormedPostfix(ChildPostfix(ts, i, l), symbols)
    decreases MaxDepth(ts) - ts[i].depth, ts[i].precedence, i, 0
  {
    match l
    case Some(Leaf(c)) =>
      var w := [c];
      assert w[..1] == w;
      assert w[..0] == [];
    case Some(Node(j)) =>
      PostfixWellFormed(ts, j, symbols);
  }

  /** Every character of a serialisation is a token character or a leaf
      character of the arena. */
  lemma {:induction false} PostfixChars(ts: seq<Token>, i: nat, chars: set<char>)
    requires Descending(ts) && i < |ts|
    requires forall k :: 0 <= k < |ts| ==> ts[k].value in chars
    requires forall k :: 0 <= k < |ts| ==>
      && (ts[k].left.Some? && ts[k].left.value.Leaf? ==> ts[k].left.value.value in chars)
      && (ts[k].right.Some? && ts[k].right.value.Leaf? ==> ts[k].right.value.value in chars)
    ensures forall c :: c in Postfix(ts, i) ==> c in chars
    decreases MaxDepth(ts) - ts[i].depth, ts[i].precedence, i, 1
  {
    ChildChars(ts, i, ts[i].left, chars);
    ChildChars(ts, i, ts[i].right, chars);
  }

  lemma {:induction false} ChildChars(ts: seq<Token>, i: nat, l: Option<Link>, chars: set<char>)
    requires Descending(ts) && i < |ts| && Below(ts, i, l)
    requires l == ts[i].left || l == ts[i].right
    requires forall k :: 0 <= k < |ts| ==> ts[k].value in chars
    requires forall k :: 0 <= k < |ts| ==>
      && (ts[k].left.Some? && ts[k].left.value.Leaf? ==> ts[k].left.value.value in chars)
      && (ts[k].right.Some? && ts[k].right.value.Leaf? ==> ts[k].right.value.value in chars)
    ensures forall c :: c in ChildPostfix(ts, i, l) ==> c in chars
    decreases MaxDepth(ts) - ts[i].depth, ts[i].precedence, i, 0
  {
    match l
    case None =>
    case Some(Leaf(c)) =>
    case Some(Node(j)) =>
      PostfixChars(ts, j, chars);
  }
}

=== FILE: scanner.dfy ===
/**
  The scanner and tokeniser of `InfixToPostfix`: the precedence table, the
  split of an infix string into its variables and its operator/parenthesis
  characters, and the turning of the operator characters into tokens that
  record their precedence and parenthesis depth.
 */
module Scanner {
  import opened Wrappers
  import opened Operator

  const OpenParenthesis: char := '('
  const CloseParenthesis: char := ')'

  /** Lower precedence is handled first: `*` and `/` bind tighter than `+`
      and `-`. */
  const OperatorPrecedences: map<char, nat> := map['+' := 2, '-' := 2, '*' := 1, '/' := 1]

  /** A character the scanner sends to the operator string: a key of the
      precedence table or a parenthesis. */
  predicate CharIsOperator(c: char) {
    c in OperatorPrecedences || c == OpenParenthesis || c == CloseParenthesis
  }

  predicate IsParenthesis(c: char) {
    c == OpenParenthesis || c == CloseParenthesis
  }

  /** Splits `str` into (variables, operators), appending each character in
      turn to one of the two. */
  function GetVariablesAndOperators(str: string): (r: (string, string))
    ensures |r.0| + |r.1| == |str|
    ensures forall k :: 0 <= k < |r.0| ==> !CharIsOperator(r.0[k])
    ensures forall k :: 0 <= k < |r.1| ==> CharIsOperator(r.1[k])
  {
    if |str| == 0 then ("", "")
    else
      var (variables, operators) := GetVariablesAndOperators(str[..|str| - 1]);
      var c := str[|str| - 1];
      assert str == str[..|str| - 1] + [c];
      if CharIsOperator(c) then (variables, operators + [c])
      else (variables + [c], operators)
  }

  /** The two outputs together hold exactly the characters of the input. */
  lemma {:induction false} ScanPartition(str: string)
    ensures multiset(GetVariablesAndOperators(str).0) + multiset(GetVariablesAndOperators(str).1) == multiset(str)
  {
    if |str| > 0 {
      var s', c := str[..|str| - 1], str[|str| - 1];
      assert str == s' + [c];
      ScanPartition(s');
    }
  }

  /** Scanning one more character appends it to exactly one side. */
  lemma ScanSnoc(s: string, c: char)
    ensures GetVariablesAndOperators(s + [c]) ==
      if CharIsOperator(c) then (GetVariablesAndOperators(s).0, GetVariablesAndOperators(s).1 + [c])
      else (GetVariablesAndOperators(s).0 + [c], GetVariablesAndOperators(s).1)
  {
    assert (s + [c])[..|s + [c]| - 1] == s;
  }

  /** The scan of a concatenation is the concatenation of the scans: each of
      the two output strings is the subsequence of the input, in source
      order, on its side of `CharIsOperator`. */
  lemma {:induction false} ScanConcat(a: string, b: string)
    ensures GetVariablesAndOperators(a + b).0 == GetVariablesAndOperators(a).0 + GetVariablesAndOperators(b).0
    ensures GetVariablesAndOperators(a + b).1 == GetVariablesAndOperators(a).1 + GetVariablesAndOperators(b).1
    decreases |b|
  {
    if |b| == 0 {
      assert a + b == a;
    } else {
      var b', c := b[..|b| - 1], b[|b| - 1];
      assert a + b == (a + b') + [c];
      assert b == b' + [c];
      ScanConcat(a, b');
      ScanSnoc(a + b', c);
      ScanSnoc(b', c);
    }
  }

  /** The characters of `s` that satisfy `CharIsOperator`, in order. */
  function OperatorChars(s: string): (r: string)
  {
    if |s| == 0 then ""
    else (if CharIsOperator(s[0]) then [s[0]] else "") + OperatorChars(s[1..])
  }

  /** The characters of `s` that do not satisfy `CharIsOperator`, in order. */
  function VariableChars(s: string): (r: string)
  {
    if |s| == 0 then ""
    else (if CharIsOperator(s[0]) then "" else [s[0]]) + VariableChars(s[1..])
  }

  lemma {:induction false} OperatorCharsConcat(a: string, b: string)
    ensures OperatorChars(a + b) == OperatorChars(a) + OperatorChars(b)
    decreases |a|
  {
    if |a| == 0 {
      assert a + b == b;
    } else {
      assert (a + b)[0] == a[0] && (a + b)[1..] == a[1..] + b;
      OperatorCharsConcat(a[1..], b);
    }
  }

  lemma {:induction false} VariableCharsConcat(a: string, b: string)
    ensures VariableChars(a + b) == VariableChars(a) + VariableChars(b)
    decreases |a|
  {
    if |a| == 0 {
      assert a + b == b;
    } else {
      assert (a + b)[0] == a[0] && (a + b)[1..] == a[1..] + b;
      VariableCharsConcat(a[1..], b);
    }
  }

  /** The scanner's two outputs are the subsequence of the input on each side
      of `CharIsOperator`, in source order. */
  lemma {:induction false} ScanIsFilter(str: string)
    ensures GetVariablesAndOperators(str) == (VariableChars(str), OperatorChars(str))
    decreases |str|
  {
    if |str| > 0 {
      var s', c := str[..|str| - 1], str[|str| - 1];
      assert str == s' + [c];
      ScanIsFilter(s');
      ScanSnoc(s', c);
      OperatorCharsConcat(s', [c]);
      VariableCharsConcat(s', [c]);
      assert [c][1..] == [];
      assert OperatorChars([c]) == (if CharIsOperator(c) then [c] else "") + OperatorChars([]);
      assert VariableChars([c]) == (if CharIsOperator(c) then "" else [c]) + VariableChars([]);
      assert OperatorChars(str) == OperatorChars(s') + OperatorChars([c]);
      assert VariableChars(str) == VariableChars(s') + VariableChars([c]);
      if CharIsOperator(c) {
        assert VariableChars([c]) == "" && OperatorChars([c]) == [c];
        assert VariableChars(str) == VariableChars(s');
      } else {
        assert VariableChars([c]) == [c] && OperatorChars([c]) == "";
        assert OperatorChars(str) == OperatorChars(s');
      }
    }
  }

  /** Number of characters of `s` that are not parentheses. */
  function NonParentheses(s: string): (n: nat)
    ensures n <= |s|
  {
    if |s| == 0 then 0
    else (if IsParenthesis(s[0]) then 0 else 1) + NonParentheses(s[1..])
  }

  /** Parentheses opened and not yet closed in `s`: the count of `(` minus
      the count of `)`. */
  function Balance(s: string): int {
    if |s| == 0 then 0
    else
      (if s[0] == OpenParenthesis then 1 else if s[0] == CloseParenthesis then -1 else 0)
      + Balance(s[1..])
  }

  /** The token the tokeniser creates for operator character `c` at depth `d`. */
  function NewToken(c: char, d: int): Token
    requires c in OperatorPrecedences
  {
    Token(c, d, OperatorPrecedences[c], None, None, false)
  }

  /** The tokeniser loop from position `i` with running depth `depth`:
      `(` and `)` move the depth and every other character becomes a token. */
  function Tokenise(ops: string, i: nat, depth: int): (ts: seq<Token>)
    requires i <= |ops|
    requires forall k :: i <= k < |ops| ==> CharIsOperator(ops[k])
    ensures |ts| == NonParentheses(ops[i..])
    decreases |ops| - i
  {
    if i == |ops| then []
    else
      assert ops[i..] == [ops[i]] + ops[i + 1..];
      var c := ops[i];
      assert CharIsOperator(c);
      if c == OpenParenthesis then Tokenise(ops, i + 1, depth + 1)
      else if c == CloseParenthesis then Tokenise(ops, i + 1, depth - 1)
      else [NewToken(c, depth)] + Tokenise(ops, i + 1, depth)
  }

  /** The token list of an operator string, starting at depth 0. */
  function GetOperators(ops: string): (ts: seq<Token>)
    requires forall k :: 0 <= k < |ops| ==> CharIsOperator(ops[k])
  {
    Tokenise(ops, 0, 0)
  }

  /** Tokenising from inside the second half of `a + b` ignores `a`. */
  lemma {:induction false} TokeniseShift(a: string, b: string, j: nat, depth: int)
    requires j <= |b|
    requires forall k :: 0 <= k < |b| ==> CharIsOperator(b[k])
    ensures forall k :: |a| + j <= k < |a + b| ==> CharIsOperator((a + b)[k])
    ensures Tokenise(a + b, |a| + j, depth) == Tokenise(b, j, depth)
    decreases |b| - j
  {
    assert forall k :: |a| <= k < |a + b| ==> (a + b)[k] == b[k - |a|];
    if j < |b| {
      var c := b[j];
      var d' := if c == OpenParenthesis then depth + 1 else if c == CloseParenthesis then depth - 1 else depth;
      TokeniseShift(a, b, j + 1, d');
      assert (a + b)[|a| + j] == c;
    }
  }

  /** The tokens of `a + b` are the tokens of `a` followed by the tokens of
      `b`, which start at the depth `a` leaves open. */
  lemma {:induction false} TokeniseConcat(a: string, b: string, i: nat, depth: int)
    requires i <= |a|
    requires forall k :: 0 <= k < |a| ==> CharIsOperator(a[k])
    requires forall k :: 0 <= k < |b| ==> CharIsOperator(b[k])
    ensures forall k :: i <= k < |a + b| ==> CharIsOperator((a + b)[k])
    ensures Tokenise(a + b, i, depth) == Tokenise(a, i, depth) + Tokenise(b, 0, depth + Balance(a[i..]))
    decreases |a| - i
  {
    assert forall k :: 0 <= k < |a| ==> (a + b)[k] == a[k];
    assert forall k :: |a| <= k < |a + b| ==> (a + b)[k] == b[k - |a|];
    if i == |a| {
      assert a[i..] == [];
      TokeniseShift(a, b, 0, depth);
    } else {
      var c := a[i];
      var d' := if c == OpenParenthesis then depth + 1 else if c == CloseParenthesis then depth - 1 else depth;
      TokeniseConcat(a, b, i + 1, d');
      assert (a + b)[i] == c;
      assert a[i..][0] == c && a[i..][1..] == a[i + 1..];
      assert Balance(a[i..]) == (d' - depth) + Balance(a[i + 1..]);
    }
  }

  /** Each non-parenthesis character at position `p` becomes the token whose
      index is the number of non-parenthesis characters before it; that token
      has the character's precedence and, as depth, the starting depth plus
      the parentheses opened and not yet closed before `p`. */
  lemma {:induction false} TokeniseAt(ops: string, i: nat, depth: int, p: nat)
    requires i <= p < |ops|
    requires forall k :: i <= k < |ops| ==> CharIsOperator(ops[k])
    requires !IsParenthesis(ops[p])
    ensures NonParentheses(ops[i..p]) < |Tokenise(ops, i, depth)|
    ensures Tokenise(ops, i, depth)[NonParentheses(ops[i..p])] == NewToken(ops[p], depth + Balance(ops[i..p]))
    decreases p - i
  {
    var c := ops[i];
    var t := Tokenise(ops, i, depth);
    if p == i {
      assert ops[i..p] == [];
      assert CharIsOperator(c);
      assert t[0] == NewToken(c, depth);
    } else {
      var d' := if c == OpenParenthesis then depth + 1 else if c == CloseParenthesis then depth - 1 else depth;
      var t' := Tokenise(ops, i + 1, d');
      var s, s' := ops[i..p], ops[i + 1..p];
      assert s[0] == c && s[1..] == s';
      TokeniseAt(ops, i + 1, d', p);
      if IsParenthesis(c) {
        assert t == t';
        assert NonParentheses(s) == NonParentheses(s');
      } else {
        assert CharIsOperator(c);
        assert t == [NewToken(c, depth)] + t';
        assert NonParentheses(s) == 1 + NonParentheses(s');
      }
      assert Balance(s) == (d' - depth) + Balance(s');
    }
  }

  /** `TokeniseAt` for every position: the token list is the non-parenthesis
      characters in order, each with its precedence and its depth. */
  lemma TokeniseDepths(ops: string)
    requires forall k :: 0 <= k < |ops| ==> CharIsOperator(ops[k])
    ensures forall p :: 0 <= p < |ops| && !IsParenthesis(ops[p]) ==>
      && NonParentheses(ops[..p]) < |GetOperators(ops)|
      && GetOperators(ops)[NonParentheses(ops[..p])] == NewToken(ops[p], Balance(ops[..p]))
  {
    forall p | 0 <= p < |ops| && !IsParenthesis(ops[p])
      ensures NonParentheses(ops[..p]) < |GetOperators(ops)|
      ensures GetOperators(ops)[NonParentheses(ops[..p])] == NewToken(ops[p], Balance(ops[..p]))
    {
      TokeniseAt(ops, 0, 0, p);
      assert ops[0..p] == ops[..p];
    }
  }

  /** Every token is fresh, carries a key of the precedence table that occurs
      in the part of `ops` it was read from, and that key's precedence. */
  lemma {:induction false} TokeniseValues(ops: string, i: nat, depth: int)
    requires i <= |ops|
    requires forall k :: i <= k < |ops| ==> CharIsOperator(ops[k])
    ensures forall k :: 0 <= k < |Tokenise(ops, i, depth)| ==>
      && Fresh(Tokenise(ops, i, depth)[k])
      && Tokenise(ops, i, depth)[k].value in ops[i..]
      && Tokenise(ops, i, depth)[k].value in OperatorPrecedences
      && Tokenise(ops, i, depth)[k].precedence == OperatorPrecedences[Tokenise(ops, i, depth)[k].value]
    decreases |ops| - i
  {
    if i < |ops| {
      var c := ops[i];
      var d' := if c == OpenParenthesis then depth + 1 else if c == CloseParenthesis then depth - 1 else depth;
      var t, t' := Tokenise(ops, i, depth), Tokenise(ops, i + 1, d');
      TokeniseValues(ops, i + 1, d');
      assert ops[i..] == [c] + ops[i + 1..];
      assert CharIsOperator(c);
      forall k | 0 <= k < |t|
        ensures Fresh(t[k]) && t[k].value in ops[i..]
        ensures t[k].value in OperatorPrecedences && t[k].precedence == OperatorPrecedences[t[k].value]
      {
        if IsParenthesis(c) {
          assert t == t';
          assert t'[k].value in ops[i + 1..];
        } else if k == 0 {
          assert t[0] == NewToken(c, depth);
        } else {
          assert t == [NewToken(c, depth)] + t';
          assert t[k] == t'[k - 1];
          assert t'[k - 1].value in ops[i + 1..];
        }
      }
    }
  }
}

=== FILE: wrappers.dfy ===
/** The optional value the model uses in place of a nullable reference. */
module Wrappers {

  /** An optional value; stands in for a possibly-null reference. */
  datatype Option<+T> = None | Some(value: T)
}
